=== FILE: README.md ===
# Notes app core, modelled in Dafny

The application is a small notes service. A NestJS backend keeps notes in a Firestore `notes` collection, and each request is authenticated with a Firebase ID token. A React frontend keeps a client-side cache of the user's notes and derives its views from it.

This project models the logic of both halves that can be stated without the network, the SDKs or the DOM.

**Backend notes service** (`NotesService`)
- The `notes` collection is a `map<NoteId, Note>`.
- `createNote`, `getNotes`, `getNoteById`, `updateNote` and `deleteNote` are modelled over that map.
- The generated document id and the clock are parameters.

**Backend controllers** (`Bearer`, `NotesController`, `AuthController`)
- A caller's uid is derived from `Authorization: Bearer <token>`. Firebase's `verifyIdToken` is an abstract partial function from token to uid.
- The required-field checks of every endpoint are modelled.
- So is the owner check that `GET /api/notes/:id` adds on top of the service.

**Frontend error messages** (`ErrorMessages`)
- `getErrorMessage` extracts a code. The code comes from a string, from an object's `code`, or from the first `(…)` group of a message.
- It then looks the code up in the auth, API and note tables, in that order.
- On a miss it falls back to a per-context default.
- A lookup `table[code]` counts when it is truthy: the code is a key and its text is non-empty.
- `Resolve` is this lookup for any three tables. The general facts are proved about `Resolve`, and `GetErrorMessage` is `Resolve` applied to the application's tables.

**Frontend sidebar** (`NoteSidebar`)
- Display name and initial.
- Case-insensitive search and newest-first order.
- Tag-stripped 50-character preview.
- The delete-confirmation dialog.

**Frontend dashboards** (`Dashboard` and `NotesDashboard`)
- The client-side state, with every handler as a function from the state before to the state after. The API call's outcome is a parameter (`Client.Answer`).
- `Dashboard` also covers the unsaved-changes test, the export text and the export file name.

**Sign-up validation** (`SignUp`)
- The ordered checks of the sign-up form.

**Shared modules**
- `Text`: JavaScript string operations restricted to ASCII — `split`, `includes`, `toLowerCase`, `trim` and truthiness.
- `NoteModel`: the note record and the list operations the frontends share.
- `Wrappers`: `Option` and `Result`.

The files form one program: give them all to `dafny verify` at once.

**Modelling conventions**
- A JavaScript value that may be `undefined` or empty is an `Option<string>`. `Text.Given` is its truthiness.
- Timestamps are integers.
- A note's content that the frontend reads as `note.content || ''` is the string itself. Notes are never created without content.

## Model

| member | source | states |
|---|---|---|
| NotesService.CreateNote | backend/src/notes/notes.service.ts:9-33 | Fails with "Title and content are required" exactly when the title or content is empty, and then the store is unchanged. On success, the returned record is the one stored under the fresh id. It is owned by the caller, carries the given title, content and creation time, and has no update time. Every other record is untouched. Well-keyed and non-empty stores stay so. |
| NotesService.CollectOwned | backend/src/notes/notes.service.ts:47-56 | Visiting every document once collects each of the caller's records exactly once and nothing else (as a multiset). |
| NotesService.GetNotes | backend/src/notes/notes.service.ts:45-62 | Returns each of the caller's records exactly once and nothing else (as a multiset). The records are in non-increasing `created_at` order, and `count` is the number returned. |
| NotesService.GetNoteById | backend/src/notes/notes.service.ts:74-88 | Succeeds exactly when the id is stored, with the stored record, whoever the caller is. Otherwise it fails with "Note not found". |
| NotesService.UpdateNote | backend/src/notes/notes.service.ts:100-125 | A missing id fails with "Note not found" before any owner check. A non-owner fails with the update message. Both failures leave the store unchanged. Success happens exactly for the owner. On success, the keys and all other records are unchanged, and the record is patched: each absent or empty field keeps its old value, id, owner and creation time stay, and `updated_at` is stamped. |
| NotesService.DeleteNote | backend/src/notes/notes.service.ts:142-168 | Same error order as update. Success happens exactly for the owner, and it removes exactly that key while every remaining record is untouched. |
| NotesService.OthersCannotTouch | backend/src/notes/notes.service.ts:111-119 | A call by anyone other than the stored owner fails and leaves the store as it was, for update and for delete. |
| NotesService.UpdateNeverClears | backend/src/notes/notes.service.ts:121-123 | Whatever an update sends, a stored non-empty title or content never becomes empty. |
| Bearer.TokenOf | backend/src/notes/notes.controller.ts:30 | There is a token exactly when the header contains a space. The token is the longest space-free prefix of the text after the first space. |
| Bearer.TokenOfSchemeAndToken | backend/src/notes/notes.controller.ts:30 | Element `[1]` of `"<scheme> <token>".split(' ')` is the token, for space-free scheme and token. |
| Bearer.TokenOfWithoutSpace | backend/src/notes/notes.controller.ts:30 | A header without a space yields no token. |
| Bearer.VerifyToken | backend/src/notes/notes.controller.ts:32-37 | A missing or empty token is rejected. Any other token yields exactly what verification yields. |
| NotesController.UserIdFromRequest | backend/src/notes/notes.controller.ts:23-38 | A missing header gives "No authorization header". Otherwise the caller is the uid the token verifies to, or "Invalid or expired token". |
| NotesController.BearerHeaderAuthenticates | backend/src/notes/notes.controller.ts:26-37 | With `Bearer <token>`, the caller is exactly the uid the token proves, and a rejected token is refused. |
| NotesController.CreateNote | backend/src/notes/notes.controller.ts:44-61 | Authentication fails first and changes nothing. Then a missing body or an empty title or content fails without reaching the service. Otherwise the answer and the store are exactly the service's create for the authenticated caller. A created note is owned by that caller, carries the posted fields, is stored under the fresh id, is stamped with the request time and has no update time. |
| NotesController.GetNotes | backend/src/notes/notes.controller.ts:67-71 | Unauthenticated requests are refused. An authenticated caller gets exactly their own notes, newest first, with a matching count. |
| NotesController.GetNoteById | backend/src/notes/notes.controller.ts:77-94 | Authentication comes first. "Note not found" is passed through. A non-owner gets a 401. The owner gets the stored record. A successful reply is always the stored record, and the caller owns it. |
| NotesController.UpdateNote | backend/src/notes/notes.controller.ts:100-118 | Authentication comes first. Then, with a missing body or both fields empty or absent, it answers "At least one of title or content is required" and the store is unchanged. Otherwise the answer is exactly the service's. The store changes only for the owner. |
| NotesController.DeleteNote | backend/src/notes/notes.controller.ts:124-128 | Authentication comes first, then exactly the service's answer. The store changes only for the owner, and then loses exactly that key. |
| NotesController.MissingHeaderRejected | backend/src/notes/notes.controller.ts:26-28 | Without an Authorization header, create, get, update and delete all answer 401 and leave the store unchanged. |
| NotesController.CreateThenGet | backend/src/notes/notes.controller.ts:44-94 | A note created with a valid bearer token can be read back by the same caller, with the title, content and owner it was created with. |
| NotesController.DeleteThenGet | backend/src/notes/notes.controller.ts:77-84 | After a successful delete, reading the id answers "Note not found". |
| NotesController.UpdateOneFieldKeepsOther | backend/src/notes/notes.controller.ts:109-117 | An update that sends only the title keeps the stored content, and the reverse. |
| AuthController.Register | backend/src/auth/auth.controller.ts:19-24 | Fails with "Email, password, and name are required" exactly when any field is empty or absent. Otherwise it forwards the three given values. |
| AuthController.Login | backend/src/auth/auth.controller.ts:37-42 | Fails with "UID is required" exactly when `uid` is empty or absent. Otherwise it forwards that uid. |
| AuthController.Verify | backend/src/auth/auth.controller.ts:55-60 | Fails with "ID token is required" exactly when `idToken` is empty or absent. Otherwise it forwards it. |
| AuthController.Profile | backend/src/auth/auth.controller.ts:70-85 | No header gives a 401 "No authorization header". A token that fails verification or yields an empty uid gives a 401 "Invalid token". Otherwise it loads the profile of exactly the verified uid. |
| AuthController.ProfileOnlyForVerifiedUid | backend/src/auth/auth.controller.ts:77-84 | A profile load happens only when a header is present, carries a non-empty token, and that token verifies to the uid being loaded. |
| ErrorMessages.CodeInMessageFindsCode | frontend/src/lib/errorMessages.js:58-64 | A message `prefix(code)suffix`, with no "(" in the prefix and a non-empty code free of ")", yields exactly that code (leftmost match). |
| ErrorMessages.CodeInMessageEmptyWithoutGroup | frontend/src/lib/errorMessages.js:61-64 | A message with no `(…)` group yields the empty code. |
| ErrorMessages.Extract | frontend/src/lib/errorMessages.js:48-65 | A string is both code and message. An object with a code uses that code and its message, "" if absent. An object with only a message takes the code from the message's first parenthesised group. Anything else yields neither. |
| ErrorMessages.Resolve | frontend/src/lib/errorMessages.js:67-111 | For any three tables, the first table whose entry for the code is truthy (a key with non-empty text) gives its title and text. On a miss, the title is the context's, and the description is the original message when there is one. |
| ErrorMessages.GetErrorMessage | frontend/src/lib/errorMessages.js:47-111 | A code in the auth table wins, then the API table, then the note table, each with its fixed title. On a miss, the title is the context's, and the description is the original message when non-empty. |
| ErrorMessages.ResolveNeverEmpty | frontend/src/lib/errorMessages.js:67-111 | Whatever the tables, every result has a non-empty title and description: only truthy entries are reported, and every fallback has a non-empty default. |
| ErrorMessages.ResolveFindsEveryEntry | frontend/src/lib/errorMessages.js:67-89 | When no code is in two tables, every truthy API and note entry is reported under its own title, despite the auth table being consulted first. |
| ErrorMessages.ShapedTablesDisjoint | frontend/src/lib/errorMessages.js:6-39 | Auth codes starting with "a" and upper-case API and note codes leave only the API and note tables able to share a code. |
| ErrorMessages.TablesShaped | frontend/src/lib/errorMessages.js:6-39 | Every auth code reads "auth/…", and every API and note code starts with an upper-case letter. |
| ErrorMessages.TablesDisjoint | frontend/src/lib/errorMessages.js:6-39 | No code appears in two tables, so the lookup order never hides an entry. |
| ErrorMessages.EveryEntryReported | frontend/src/lib/errorMessages.js:75-89 | Any API or note code is reported with its own table's title and text. |
| ErrorMessages.ResultNeverEmpty | frontend/src/lib/errorMessages.js:6-111 | Every result has a non-empty title and a non-empty description. |
| ErrorMessages.UnknownContextIsGeneral | frontend/src/lib/errorMessages.js:111 | A context other than auth, signup and notes gives the general result. |
| ErrorMessages.MissWithoutMessageUsesDefault | frontend/src/lib/errorMessages.js:92-109 | On a miss with no original message, the result is the context's fixed default. |
| ErrorMessages.FirebaseCodeExtracted | frontend/src/lib/errorMessages.js:58-64 | The code of a message `… (auth/wrong-password).` is the text inside its parentheses. |
| ErrorMessages.FirebaseMessageRecognised | frontend/src/lib/errorMessages.js:58-73 | An error object whose only property is a message ending in `(auth/wrong-password).`, with no "(" before it, is shown as the auth table's wrong-password text. |
| ErrorMessages.FirebaseStringShownRaw | frontend/src/pages/LoginPage.jsx:37-71 | The login page passes the Firebase text `Firebase: Error (<code>).` as a string, and for every code it is shown as it is under "Sign In Failed". The same text as an object's message is shown as the wrong-password entry. |
| ErrorMessages.ResolveAsWritten | frontend/src/lib/errorMessages.js:67-111 | With plain-object lookups, an inherited name that is no key of the auth table gives an auth banner with an inherited member. A non-empty own auth entry is reported as such, and an own entry with empty text shadows the inherited member and is falsy, so the auth table is skipped. Away from inherited names, the result is the intended one. |
| ErrorMessages.GetErrorMessageAsWritten | frontend/src/lib/errorMessages.js:68-111 | With plain-object lookups as written, a code named like an `Object.prototype` member is reported as an authentication error. |
| ErrorMessages.ShapedTablesAvoidInherited | frontend/src/lib/errorMessages.js:6-39 | Under the code naming convention, no `Object.prototype` member name can be a table key. |
| ErrorMessages.InheritedNamesAreNoCodes | frontend/src/lib/errorMessages.js:6-39 | No inherited property name is an entry of any of the application's tables. |
| ErrorMessages.InheritedCodeMisreported | frontend/src/lib/errorMessages.js:68-73 | The string error "constructor" gives an "Authentication Error" banner whose description is an inherited method. The intended result is "Sign In Failed" showing the message. |
| ErrorMessages.InheritedContextMisreported | frontend/src/lib/errorMessages.js:92-111 | The context "toString" returns an inherited method instead of the general banner. |
| ErrorMessages.AsWrittenAgreesOffPrototype | frontend/src/lib/errorMessages.js:47-111 | Away from inherited names, the lookups as written and the intended model give the same banner. |
| Text.ContainsIsInfix | frontend/src/components/NoteSidebar.jsx:37-38 | The substring scan behind `includes` holds exactly when the pattern occurs at some position. |
| Text.TrimEmptyIffAllSpace | frontend/src/pages/Dashboard.jsx:369 | `trim()` gives "" exactly when every character is white space. |
| Text.JoinSplit | backend/src/notes/notes.controller.ts:30 | Joining the pieces of a `split` with the separator rebuilds the string. |
| Text.SplitJoin | backend/src/notes/notes.controller.ts:30 | Splitting a join of separator-free pieces gives the pieces back. |
| Text.FirstFieldIsPrefix | frontend/src/components/NoteSidebar.jsx:32 | `split(sep)[0]` is the longest separator-free prefix. |
| NoteModel.SortByCreatedDesc | frontend/src/components/NoteSidebar.jsx:41-45 | The result is a permutation of the input with non-increasing `created_at`. |
| NoteModel.SortKeepsSorted | frontend/src/components/NoteSidebar.jsx:41-45 | The sort leaves a list that is already newest first exactly as it is. |
| NoteModel.SortStable | frontend/src/components/NoteSidebar.jsx:41-45 | The sort is stable: for every timestamp, the notes created at that time come out in the order they went in. |
| NoteModel.InsertDescStable | frontend/src/components/NoteSidebar.jsx:41-45 | Inserting a note into a newest-first list puts it after every note of its own timestamp already there, so each timestamp's notes keep their order. |
| NoteModel.SortIdempotent | frontend/src/components/NoteSidebar.jsx:41-45 | Sorting twice is sorting once. |
| NoteModel.RemoveById | frontend/src/pages/Dashboard.jsx:198 | A note remains exactly when it was present and has another id, with its multiplicity kept. No remaining note has the id; `NoteModel.RemoveByIdInOrder` states that the survivors keep their order. |
| NoteModel.RemoveByIdInOrder | frontend/src/pages/Dashboard.jsx:198 | Removal keeps the survivors in their order: it distributes over concatenation, and a single note survives exactly when its id differs. |
| NoteModel.FilterAppend | frontend/src/pages/Dashboard.jsx:198 | `filter` distributes over concatenation, so the kept elements stay in their order. |
| NoteModel.RemoveAbsentId | frontend/src/components/NotesDashboard.jsx:95 | Removing an id no note carries changes nothing. |
| NoteModel.ReplaceById | frontend/src/pages/Dashboard.jsx:166-170 | Same length. Notes with another id are unchanged at their position. Notes with the id get the new title and content and keep id, owner and timestamps. |
| NoteModel.ReplaceKeepsIds | frontend/src/components/NotesDashboard.jsx:71-75 | Every position keeps its id. |
| NoteModel.ReplaceIdempotent | frontend/src/components/NotesDashboard.jsx:71-75 | Saving the same fields twice is saving them once. |
| NoteSidebar.DisplayName | frontend/src/components/NoteSidebar.jsx:32 | The display name if set, else the e-mail's part before the first "@" if non-empty, else "User". Never empty. |
| NoteSidebar.DisplayNameFromEmail | frontend/src/components/NoteSidebar.jsx:32 | Without a display name, `local@domain` shows as `local`. |
| NoteSidebar.Initial | frontend/src/components/NoteSidebar.jsx:34 | Exactly one character: the display name's first character, upper-cased. |
| NoteSidebar.Matches | frontend/src/components/NoteSidebar.jsx:36-39 | A note matches exactly when the lower-cased query is an infix of the lower-cased title or content. |
| NoteSidebar.FilteredNotes | frontend/src/components/NoteSidebar.jsx:36-39 | Keeps exactly the matching notes, each as often as in the input; `NoteSidebar.FilteredNotesInOrder` states that they keep their order. |
| NoteSidebar.FilteredNotesInOrder | frontend/src/components/NoteSidebar.jsx:36-39 | The search keeps matching notes in their order: it distributes over concatenation, and a single note is kept exactly when it matches. |
| NoteSidebar.EmptyQueryKeepsAll | frontend/src/components/NoteSidebar.jsx:36-39 | The empty query keeps every note, in order. |
| NoteSidebar.SortedNotes | frontend/src/components/NoteSidebar.jsx:36-45 | A permutation of the filtered notes, newest first, containing exactly the matching notes. Notes with equal timestamps keep their order from the filtered list. |
| NoteSidebar.StripTags | frontend/src/components/NoteSidebar.jsx:131 | No `<…>` span remains. The result is no longer than the input and uses only its characters. |
| NoteSidebar.StripTagsKeepsTagFree | frontend/src/components/NoteSidebar.jsx:131 | Text without a `<…>` span is left exactly as it is. |
| NoteSidebar.StripTagsIdempotent | frontend/src/components/NoteSidebar.jsx:131 | Stripping twice is stripping once. |
| NoteSidebar.StripTagsKeepsPlainPrefix | frontend/src/components/NoteSidebar.jsx:131 | Text before the first "<" is kept exactly, in front of the stripped rest. |
| NoteSidebar.StripTagsDropsSpan | frontend/src/components/NoteSidebar.jsx:131 | A span `<…>` that follows tag-free text is removed whole, and the text before it is kept. |
| NoteSidebar.StripTagsWithoutClose | frontend/src/components/NoteSidebar.jsx:131 | Text with no ">" is left exactly as it is, including a "<" that is never closed. |
| NoteSidebar.Preview | frontend/src/components/NoteSidebar.jsx:130-132 | "No content" when the stripped text is empty. Otherwise it is the first min(50, length) characters of the stripped text. Never more than 50 characters. |
| NoteSidebar.TitleLabel | frontend/src/components/NoteSidebar.jsx:121 | The title, or "Untitled" when it is empty. Never empty. |
| NoteSidebar.HandleDeleteClick | frontend/src/components/NoteSidebar.jsx:47-49 | Opens the dialog for that note. |
| NoteSidebar.ConfirmDelete | frontend/src/components/NoteSidebar.jsx:51-56 | Requests deletion of exactly the pending note's id when one is pending, otherwise nothing. Always closes the dialog. |
| NoteSidebar.CancelDelete | frontend/src/components/NoteSidebar.jsx:58-60 | Closes the dialog without requesting anything. |
| NoteSidebar.ClickThenConfirm | frontend/src/components/NoteSidebar.jsx:47-60 | Clicking delete on a note and then confirming requests exactly that note's id. Cancelling requests nothing. |
| Dashboard.SelectNote | frontend/src/pages/Dashboard.jsx:102-111 | Selects the note, loads the buffers so nothing is unsaved, marks it saved and drops the pending save. The list, the error, the editing flag and the create modal with its fields are unchanged. A note from the list keeps the selection in the list. |
| Dashboard.FetchNotes | frontend/src/pages/Dashboard.jsx:77-100 | On success the list is the server's (or empty), the error is cleared, and the first note is selected exactly when the list is non-empty. On failure only the error changes, to the declined or the unreachable message. |
| Dashboard.HandleCreateNote | frontend/src/pages/Dashboard.jsx:113-134 | On success the new note is prepended and selected with nothing unsaved, and the modal closes with both fields cleared. On failure only the error changes, to the declined or the unreachable message, so the list, selection, modal and both fields are kept. The selection stays in the list. |
| Dashboard.CancelCreate | frontend/src/pages/Dashboard.jsx:375-379 | Closes the modal and discards both fields, leaving the list, selection and error as they were. |
| Dashboard.CreateDisabled | frontend/src/pages/Dashboard.jsx:369 | The Create button is disabled exactly when the title is all white space. |
| Dashboard.EditContent | frontend/src/pages/Dashboard.jsx:137-147 | After an edit, the status is "unsaved" and a save is pending exactly when a buffer differs from the selected note. Otherwise status and timer are unchanged. |
| Dashboard.UnsavedAfterEdit | frontend/src/pages/Dashboard.jsx:137-147 | Selecting a note and then editing its content leaves the note unsaved (`IsUnsaved`: a buffer differs from the selected note), with a save pending and the status "unsaved", exactly when the new content differs from the note's. Otherwise it stays saved. |
| Dashboard.AutoSave | frontend/src/pages/Dashboard.jsx:156-189 | Does nothing without a selection. On success only the cached notes with the selected id are rewritten, the list length is kept, the selection gets the same edit, and nothing is left unsaved. Everything else is kept, including an earlier error banner, which a successful save does not clear. On failure only the error changes. |
| Dashboard.HandleDeleteNote | frontend/src/pages/Dashboard.jsx:191-213 | An empty id does nothing. On success the list is `RemoveById` of the old one: exactly the notes with that id are removed and the rest keep their order, and the first remaining note is selected, or none when the list is empty. Editing ends and the error is cleared. The create modal and its fields are kept, and with no note left the buffers and save status are kept too. The selection stays in the list. On failure only the error changes. |
| Dashboard.DeletedNoteGone | frontend/src/pages/Dashboard.jsx:197-204 | After a successful delete, the id is neither cached nor selected. |
| Dashboard.SaveKeepsSelectionInList | frontend/src/pages/Dashboard.jsx:164-176 | A save keeps the selected note one of the cached notes. |
| Dashboard.EditThenSave | frontend/src/pages/Dashboard.jsx:137-178 | An edit followed by a successful save leaves nothing unsaved, and the cache holds the saved note. |
| Dashboard.ExportText | frontend/src/pages/Dashboard.jsx:61 | The export is `# `, then the title, then a blank line, then the plain text, with nothing else: its length is the two lengths plus 4. |
| Dashboard.ExportRoundTrip | frontend/src/pages/Dashboard.jsx:61 | The export text `# title`, blank line, text reads back as exactly that title and text when the title is one line. |
| Dashboard.ExportFilename | frontend/src/pages/Dashboard.jsx:66 | The file name is the title, or "untitled" when the title is empty, followed by ".md". |
| Dashboard.HandleExportNote | frontend/src/pages/Dashboard.jsx:55-66 | Exports exactly when a note is selected. The file name is derived from the title buffer, and the text is exactly `ExportText` of the title buffer and the plain text. When the title is one line, the text reads back as that title and the plain text. |
| NotesDashboard.FetchNotes | frontend/src/components/NotesDashboard.jsx:19-40 | On success the list is the server's (or empty) and the error is cleared. On failure only the error changes, to the message for a declined or a failed request. |
| NotesDashboard.HandleCreateNote | frontend/src/components/NotesDashboard.jsx:42-61 | On success the server's note is prepended, the form is reset and the modal closes. On failure only the error changes. |
| NotesDashboard.HandleUpdateNote | frontend/src/components/NotesDashboard.jsx:63-84 | On success only the notes with the edited id get the form's title and content, the list length is kept, and the form and editing state are cleared. On failure the server's or the exception's message is shown. |
| NotesDashboard.Submit | frontend/src/components/NotesDashboard.jsx:205 | The form updates while a note is being edited and creates otherwise. A successful create closes the modal, and so does a successful edit that was not opened over the create modal. |
| NotesDashboard.HandleDeleteNote | frontend/src/components/NotesDashboard.jsx:86-102 | Nothing happens without confirmation. On success the list is `RemoveById` of the old one: exactly the notes with that id are removed and the rest keep their order, the error is cleared, and the form, the editing note and the create flag are kept. On failure only the error changes. |
| NotesDashboard.OpenEditModal | frontend/src/components/NotesDashboard.jsx:104-107 | The modal opens on that note, with the form holding the note's title and content. The list, the error and the create flag are kept. |
| NotesDashboard.CloseModal | frontend/src/components/NotesDashboard.jsx:109-114 | The modal closes, and the editing note, form and error are discarded. The list is unchanged. |
| NotesDashboard.CloseThenOpen | frontend/src/components/NotesDashboard.jsx:104-114 | Opening a note after closing the modal fills the form from that note alone, and closing after opening is the same as closing straight away. |
| NotesDashboard.EditUnchangedKeepsNotes | frontend/src/components/NotesDashboard.jsx:70-75 | Opening a note and submitting it unchanged leaves every cached note as it was. |
| NotesDashboard.CountLabel | frontend/src/components/NotesDashboard.jsx:130 | "note" exactly when the list has one element, "notes" otherwise. |
| SignUp.FirstProblem | frontend/src/pages/SignUpPage.jsx:34-47 | A blank name gives "Full name is required". Otherwise mismatched passwords give "Passwords do not match". Otherwise a password shorter than 6 gives the length message. There is no problem exactly when all three checks pass. |
| SignUp.HandleSubmit | frontend/src/pages/SignUpPage.jsx:31-59 | `signUp` is called exactly when no check fails, with the email, password and untrimmed name. Otherwise the first problem is shown. The error is empty exactly when the page moves on. A rejected sign-up shows its message, or "Failed to create account" when the message is empty. |
| SignUp.MismatchReportedBeforeLength | frontend/src/pages/SignUpPage.jsx:39-47 | A short password that differs from its confirmation is reported as a mismatch. |
| SignUp.BlankNameReportedFirst | frontend/src/pages/SignUpPage.jsx:34-37 | A blank name is reported whatever the passwords are, and nothing is sent. |

## Left out

- The Firebase Admin, Firestore and Firebase Auth SDKs are foreign services. The collection is a map, and `verifyIdToken` is an abstract function.
- The auth service's `registerUser`, `loginUser`, `verifyToken` and `getUserProfile` are SDK calls. The auth controller's results are therefore the call it would forward.
- The services' `catch (error)` paths, which report an SDK exception's message, are not modelled; the SDK is not part of this model.
- `NotesService.GetNotes` models Firestore's `orderBy('created_at', 'desc')` as a stable sort of the caller's records taken in key-set order. Firestore's own order among equal timestamps is not modelled. So the contract fixes the records and their order by time, not the order of ties.
- HTTP transport, response parsing (`frontend/src/services/api.js`), NestJS bootstrapping and CORS are I/O.
- The one-second debounce timer, its cleanup, stale closures and races between in-flight saves are timing behaviour. `Dashboard.EditContent` records only that a save is pending, and `Dashboard.AutoSave` is the save once it fires.
- The effect that reloads the buffers when `selectedNote` changes (Dashboard.jsx lines 216-221) is not modelled separately. Every path that changes the selection goes through `SelectNote`, which loads the same buffers, and a save sets the buffers' own values.
- The `loading` and `isSaving` flags, theme, `localStorage`, `matchMedia`, logout and navigation are presentation.
- Converting HTML to text for export (`textContent` of a DOM element) is a browser API, so its result is a parameter. The Blob download is not modelled.
- The services' success-message literals ("Note created successfully" and the like) are not modelled. No frontend path reads them.
- `toLowerCase`, `toUpperCase` and `trim` are restricted to ASCII letters and the ASCII white-space characters. JavaScript's Unicode case mapping and Unicode white space are not modelled.
- String lengths are counts of Dafny characters, not of UTF-16 code units. This matters for the 50-character preview cut and the 6-character password check only outside the Basic Multilingual Plane.
- Firestore `Timestamp` values, and the sidebar's `created_at.seconds ? seconds * 1000 : created_at` conversion, are integer timestamps. The epoch itself, whose `seconds` is 0 and falsy, is not distinguished.
- Bearer.VerifyToken: rejecting a missing or empty token without consulting the verifier is an assumption about Firebase Admin's `verifyIdToken`, which is not part of this model. Every other token is passed to the abstract verifier.
- ErrorMessages.ResolveAsWritten: an inherited name that is also an own key of the auth table with empty text is not promised the inherited auth banner, because the own property shadows the inherited one in JavaScript; the contract states instead that the auth table is skipped.
- `ErrorMessages.Extract`: a `code` or `message` property that is not a string is not modelled. Such properties are strings in every caller.
- `NotesDashboard.HandleUpdateNote`: requires an editing note. Its only caller, the form's submit (line 205), calls it only then.
- The TipTap editor wrapper, the routing and the purely presentational components are UI.

## Findings

| source | as written | input that shows it | evidently intended | confidence | as-written member | corrected member |
|---|---|---|---|---|---|---|
| frontend/src/lib/errorMessages.js:68-89, 111 | The tables and the context defaults are plain objects, and `table[key]` is truthy for names inherited from `Object.prototype` as well as for own entries. | The string error "constructor" gives `{ title: 'Authentication Error', description: <the Object function> }`. The context "toString" returns a function instead of the general `{ title, description }`. | Only a table's own entries count as hits, so "constructor" falls through to the context default. An unknown context, including "toString", yields the general result. | not executed | ErrorMessages.GetErrorMessageAsWritten, ErrorMessages.InheritedCodeMisreported, ErrorMessages.InheritedContextMisreported | ErrorMessages.GetErrorMessage, ErrorMessages.ResultNeverEmpty, ErrorMessages.UnknownContextIsGeneral |

=== FILE: auth_controller.dfy ===
/**
 * The `api/auth` controller. Each endpoint checks that its required fields
 * are present and then forwards to the authentication service, whose calls
 * into Firebase Auth and Firestore are not part of this model: the result is
 * the call the controller would make, or the failure it answers instead.
 */
module AuthController {
  import opened Wrappers
  import opened Text
  import opened NoteModel
  import opened Bearer

  /** The service call a request is forwarded to. */
  datatype AuthCall =
    | RegisterUser(email: string, password: string, name: string)
    | IssueToken(uid: string)
    | CheckToken(idToken: string)
    | LoadProfile(uid: Uid)

  /** `{ success: false, message }`, a thrown `UnauthorizedException`, or a forwarded call. */
  datatype Decision = Rejected(message: string) | Unauthorized(message: string) | Forward(call: AuthCall)

  const REGISTER_REQUIRED := "Email, password, and name are required"
  const UID_REQUIRED := "UID is required"
  const ID_TOKEN_REQUIRED := "ID token is required"
  const NO_HEADER := "No authorization header"
  const INVALID_TOKEN := "Invalid token"

  /** `POST /api/auth/register`: all three fields are required. */
  function Register(email: Option<string>, password: Option<string>, name: Option<string>): (r: Decision)
    ensures r.Rejected? <==> !Given(email) || !Given(password) || !Given(name)
    ensures r.Rejected? ==> r.message == REGISTER_REQUIRED
    ensures r.Forward? ==> r.call == RegisterUser(email.value, password.value, name.value)
    ensures !r.Unauthorized?
  {
    if !Given(email) || !Given(password) || !Given(name) then Rejected(REGISTER_REQUIRED)
    else Forward(RegisterUser(email.value, password.value, name.value))
  }

  /** `POST /api/auth/login` */
  function Login(uid: Option<string>): (r: Decision)
    ensures r.Rejected? <==> !Given(uid)
    ensures r.Rejected? ==> r.message == UID_REQUIRED
    ensures r.Forward? ==> r.call == IssueToken(uid.value)
    ensures !r.Unauthorized?
  {
    if !Given(uid) then Rejected(UID_REQUIRED) else Forward(IssueToken(uid.value))
  }

  /** `POST /api/auth/verify` */
  function Verify(idToken: Option<string>): (r: Decision)
    ensures r.Rejected? <==> !Given(idToken)
    ensures r.Rejected? ==> r.message == ID_TOKEN_REQUIRED
    ensures r.Forward? ==> r.call == CheckToken(idToken.value)
    ensures !r.Unauthorized?
  {
    if !Given(idToken) then Rejected(ID_TOKEN_REQUIRED) else Forward(CheckToken(idToken.value))
  }

  /**
   * `GET /api/auth/profile`: no header is a 401; so is a token the service's
   * `verifyToken` rejects or one that yields an empty uid; otherwise the
   * profile looked up is exactly the verified uid's.
   */
  function Profile(verify: Verifier, header: Option<string>): (r: Decision)
    ensures !Given(header) ==> r == Unauthorized(NO_HEADER)
    ensures Given(header) ==>
      var uid := VerifyToken(verify, TokenOf(header.value));
      if uid.Some? && uid.value != "" then r == Forward(LoadProfile(uid.value))
      else r == Unauthorized(INVALID_TOKEN)
    ensures !r.Rejected?
  {
    if !Given(header) then Unauthorized(NO_HEADER)
    else
      var result := VerifyToken(verify, TokenOf(header.value));
      if result.None? || result.value == "" then Unauthorized(INVALID_TOKEN)
      else Forward(LoadProfile(result.value))
  }

  /** A profile is only ever loaded for the uid the presented token proves. */
  lemma ProfileOnlyForVerifiedUid(verify: Verifier, header: Option<string>)
    requires Profile(verify, header).Forward?
    ensures Given(header)
    ensures var token := TokenOf(header.value);
      && token.Some? && token.value != ""
      && verify(token.value) == Some(Profile(verify, header).call.uid)
      && Profile(verify, header).call.uid != ""
  {
  }
}

=== FILE: bearer.dfy ===
/**
 * The bearer-token gate both controllers put in front of protected calls:
 * take element `[1]` of the `Authorization` header split on one space, and
 * hand it to Firebase Admin's `verifyIdToken`, which is abstracted as a
 * partial function from token to uid.
 */
module Bearer {
  import opened Wrappers
  import opened Text
  import opened NoteModel

  /** `verifyIdToken`: the uid a token proves, or `None` when it rejects the token. */
  type Verifier = string -> Option<Uid>

  /** `authHeader.split(' ')[1]`, `None` standing for `undefined`. */
  function TokenOf(header: string): (r: Option<string>)
    ensures r.None? <==> ' ' !in header
    ensures r.Some? ==>
      var i := IndexOf(header, ' ').value;
      var rest := header[i + 1..];
      && ' ' !in r.value && |r.value| <= |rest| && rest[..|r.value|] == r.value
      && (|r.value| == |rest| || rest[|r.value|] == ' ')
  {
    if ' ' in header then
      var i := IndexOf(header, ' ').value;
      FirstFieldIsPrefix(header[i + 1..], ' ');
      SecondField(header, ' ')
    else
      SecondField(header, ' ')
  }

  /** The header `"<scheme> <token>"` yields exactly `token`. */
  lemma TokenOfSchemeAndToken(scheme: string, token: string)
    requires ' ' !in scheme && ' ' !in token
    ensures TokenOf(scheme + " " + token) == Some(token)
  {
    SecondFieldOfPair(scheme, ' ', token);
    assert scheme + " " + token == scheme + [' '] + token;
  }

  /** A header with no space at all carries no token. */
  lemma TokenOfWithoutSpace(header: string)
    requires ' ' !in header
    ensures TokenOf(header) == None
  {
    SecondFieldAbsent(header, ' ');
  }

  /**
   * Calling `verifyIdToken` on the extracted token. An `undefined` or empty
   * token is not an ID token string, so it is rejected like any bad token.
   */
  function VerifyToken(verify: Verifier, token: Option<string>): (r: Option<Uid>)
    ensures token.None? || token.value == "" ==> r.None?
    ensures token.Some? && token.value != "" ==> r == verify(token.value)
  {
    if token.None? || token.value == "" then None else verify(token.value)
  }
}

=== FILE: client.dfy ===
/**
 * How a client handler sees one call to the notes API: the response's
 * `success` flag was true (with its payload), it was false (with the
 * server's `message`), or the call threw (with the exception's `message`).
 */
module Client {
  datatype Answer<T> = Succeeded(value: T) | Declined(message: string) | Threw(message: string)
}

=== FILE: dashboard.dfy ===
/**
 * The `Dashboard` page's client-side state: the cached note list, the
 * selected note with its edit buffers and save status, the error banner and
 * the create-note modal. Each handler is a function from the state before to
 * the state after, given how the API call it makes turned out.
 */
module Dashboard {
  import opened Wrappers
  import opened Text
  import opened NoteModel
  import opened Client

  /** `saveStatus`: '', 'saved' or 'unsaved'. */
  datatype SaveStatus = NoStatus | Saved | Unsaved

  /**
   * The page's `useState` cells that its handlers touch. `timerPending`
   * stands for `autoSaveTimer` being non-null.
   */
  datatype State = State(
    notes: seq<Note>,
    selected: Option<Note>,
    editTitle: string,
    editContent: string,
    timerPending: bool,
    saveStatus: SaveStatus,
    error: string,
    isEditing: bool,
    showCreateModal: bool,
    createTitle: string,
    createDescription: string)

  const INITIAL := State([], None, "", "", false, NoStatus, "", false, false, "", "")

  const LOAD_FAILED := "Failed to load notes. Please try again later."
  const CONNECT_FAILED := "Unable to connect to the server. Please try again later."
  const CREATE_FAILED := "Failed to create note. Please try again."
  const SAVE_FAILED := "Failed to save note."
  const SAVE_UNREACHABLE := "Unable to save note. Please try again later."
  const DELETE_FAILED := "Failed to delete note. Please try again."
  const DELETE_UNREACHABLE := "Unable to delete note. Please try again later."

  /** The auto-save effect's test: a note is selected and a buffer differs from it. */
  predicate IsUnsaved(s: State) {
    s.selected.Some? && (s.editTitle != s.selected.value.title || s.editContent != s.selected.value.content)
  }

  /** The selected note, when there is one, is one of the cached notes. */
  predicate SelectionInList(s: State) {
    s.selected.Some? ==> s.selected.value in s.notes
  }

  /** `selectNote`: load the buffers from the note, drop any pending save, mark it saved. */
  function SelectNote(s: State, note: Note): (r: State)
    ensures r.selected == Some(note) && !IsUnsaved(r)
    ensures r.saveStatus == Saved && !r.timerPending
    ensures r.notes == s.notes && r.error == s.error && r.showCreateModal == s.showCreateModal
    ensures r.isEditing == s.isEditing && r.createTitle == s.createTitle && r.createDescription == s.createDescription
    ensures note in s.notes ==> SelectionInList(r)
  {
    s.(selected := Some(note), editTitle := note.title, editContent := note.content,
       timerPending := false, saveStatus := Saved)
  }

  /** `fetchNotes`; a successful response carries `notes`, possibly missing. */
  function FetchNotes(s: State, answer: Answer<Option<seq<Note>>>): (r: State)
    ensures answer.Succeeded? ==>
      && r.notes == answer.value.GetOr([]) && r.error == ""
      && (r.notes != [] ==> r.selected == Some(r.notes[0]) && !IsUnsaved(r) && r.saveStatus == Saved)
      && (r.notes == [] ==> r == s.(notes := [], error := ""))
    ensures answer.Declined? ==> r == s.(error := LOAD_FAILED)
    ensures answer.Threw? ==> r == s.(error := CONNECT_FAILED)
    ensures answer.Succeeded? && (s.selected.None? || r.notes != []) ==> SelectionInList(r)
  {
    match answer
    case Succeeded(list) =>
      var notes := list.GetOr([]);
      var t := s.(error := "", notes := notes);
      if |notes| > 0 then SelectNote(t, notes[0]) else t
    case Declined(_) => s.(error := LOAD_FAILED)
    case Threw(_) => s.(error := CONNECT_FAILED)
  }

  /** `handleCreateNote` with the note the server answered. */
  function HandleCreateNote(s: State, answer: Answer<Note>): (r: State)
    ensures answer.Succeeded? ==>
      && r.notes == [answer.value] + s.notes
      && r.selected == Some(answer.value) && !IsUnsaved(r)
      && !r.showCreateModal && r.createTitle == "" && r.createDescription == ""
      && r.error == ""
    ensures !answer.Succeeded? ==>
      r == s.(error := if answer.Declined? then CREATE_FAILED else SAVE_UNREACHABLE)
    ensures SelectionInList(s) ==> SelectionInList(r)
  {
    match answer
    case Succeeded(note) =>
      var t := s.(error := "", notes := [note] + s.notes);
      SelectNote(t, note).(showCreateModal := false, createTitle := "", createDescription := "")
    case Declined(_) => s.(error := CREATE_FAILED)
    case Threw(_) => s.(error := SAVE_UNREACHABLE)
  }

  /** The create modal's Cancel button. */
  function CancelCreate(s: State): (r: State)
    ensures !r.showCreateModal && r.createTitle == "" && r.createDescription == ""
    ensures r.notes == s.notes && r.selected == s.selected && r.error == s.error
  {
    s.(showCreateModal := false, createTitle := "", createDescription := "")
  }

  /** The Create button is disabled exactly when the title is blank. */
  function CreateDisabled(createTitle: string): (r: bool)
    ensures r <==> AllSpace(createTitle)
  {
    TrimEmptyIffAllSpace(createTitle);
    Trim(createTitle) == ""
  }

  /**
   * The editor's `onUpdate` followed by the auto-save effect: when the
   * buffers now differ from the selected note, the status becomes unsaved and
   * a save is scheduled; otherwise neither changes.
   */
  function EditContent(s: State, content: string): (r: State)
    ensures r.editContent == content && r.editTitle == s.editTitle
    ensures IsUnsaved(r) ==> r.saveStatus == Unsaved && r.timerPending
    ensures !IsUnsaved(r) ==> r.saveStatus == s.saveStatus && r.timerPending == s.timerPending
    ensures r.notes == s.notes && r.selected == s.selected
  {
    var t := s.(editContent := content);
    if IsUnsaved(t) then t.(saveStatus := Unsaved, timerPending := true) else t
  }

  /**
   * `autoSaveNote`: nothing without a selection; on success the buffers are
   * written into the cached note with the selected id and into the selection.
   */
  function AutoSave(s: State, answer: Answer<()>): (r: State)
    ensures s.selected.None? ==> r == s
    ensures s.selected.Some? && answer.Succeeded? ==>
      var id := s.selected.value.id;
      && |r.notes| == |s.notes|
      && (forall i :: 0 <= i < |s.notes| && s.notes[i].id != id ==> r.notes[i] == s.notes[i])
      && (forall i :: 0 <= i < |s.notes| && s.notes[i].id == id ==>
            r.notes[i] == s.notes[i].(title := s.editTitle, content := s.editContent))
      && r.selected == Some(s.selected.value.(title := s.editTitle, content := s.editContent))
      && r.saveStatus == Saved && !IsUnsaved(r)
    ensures s.selected.Some? && answer.Succeeded? ==>
      && r.editTitle == s.editTitle && r.editContent == s.editContent
      && r.timerPending == s.timerPending && r.isEditing == s.isEditing
      && r.showCreateModal == s.showCreateModal
      && r.createTitle == s.createTitle && r.createDescription == s.createDescription
    // A successful save leaves any earlier error banner in place.
    ensures s.selected.Some? && answer.Succeeded? ==> r.error == s.error
    ensures s.selected.Some? && !answer.Succeeded? ==>
      r == s.(error := if answer.Declined? then SAVE_FAILED else SAVE_UNREACHABLE)
  {
    if s.selected.None? then s
    else
      var sel := s.selected.value;
      match answer
      case Succeeded(_) =>
        s.(notes := ReplaceById(s.notes, sel.id, s.editTitle, s.editContent),
           selected := Some(Rewrite(sel, s.editTitle, s.editContent)),
           saveStatus := Saved)
      case Declined(_) => s.(error := SAVE_FAILED)
      case Threw(_) => s.(error := SAVE_UNREACHABLE)
  }

  /**
   * `handleDeleteNote`: an empty id does nothing; on success every note with
   * that id leaves the cache and the first remaining note, if any, is selected.
   */
  function HandleDeleteNote(s: State, noteId: NoteId, answer: Answer<()>): (r: State)
    ensures noteId == "" ==> r == s
    ensures noteId != "" && answer.Succeeded? ==>
      && r.notes == RemoveById(s.notes, noteId)
      && (forall x: Note :: x in r.notes <==> x in s.notes && x.id != noteId)
      && (forall x: Note :: x.id != noteId ==> multiset(r.notes)[x] == multiset(s.notes)[x])
      && (r.notes == [] ==> r.selected.None?)
      && (r.notes != [] ==> r.selected == Some(r.notes[0]) && !IsUnsaved(r))
      && !r.isEditing && r.error == ""
    ensures noteId != "" && answer.Succeeded? ==>
      && r.showCreateModal == s.showCreateModal
      && r.createTitle == s.createTitle && r.createDescription == s.createDescription
    ensures noteId != "" && answer.Succeeded? && RemoveById(s.notes, noteId) == [] ==>
      && r.editTitle == s.editTitle && r.editContent == s.editContent
      && r.saveStatus == s.saveStatus && r.timerPending == s.timerPending
    ensures noteId != "" && !answer.Succeeded? ==>
      r == s.(error := if answer.Declined? then DELETE_FAILED else DELETE_UNREACHABLE)
    ensures SelectionInList(s) ==> SelectionInList(r)
  {
    if noteId == "" then s
    else match answer
      case Succeeded(_) =>
        var rest := RemoveById(s.notes, noteId);
        var t := s.(error := "", notes := rest, selected := None, isEditing := false);
        if |rest| > 0 then SelectNote(t, rest[0]) else t
      case Declined(_) => s.(error := DELETE_FAILED)
      case Threw(_) => s.(error := DELETE_UNREACHABLE)
  }

  /** After a successful delete the deleted id is neither cached nor selected. */
  lemma DeletedNoteGone(s: State, noteId: NoteId)
    requires noteId != ""
    ensures var r := HandleDeleteNote(s, noteId, Succeeded(()));
      && (forall i :: 0 <= i < |r.notes| ==> r.notes[i].id != noteId)
      && (r.selected.Some? ==> r.selected.value.id != noteId)
  {
  }

  /**
   * The auto-save effect's test after selecting a note and typing into the
   * editor: the note is unsaved exactly when the typed content differs from
   * the note's, and only then is a save scheduled.
   */
  lemma UnsavedAfterEdit(s: State, note: Note, content: string)
    ensures var r := EditContent(SelectNote(s, note), content);
      && (IsUnsaved(r) <==> content != note.content)
      && (r.timerPending <==> content != note.content)
      && r.saveStatus == (if content != note.content then Unsaved else Saved)
  {
  }

  /** Saving keeps the selected note in the cache, rewritten the same way in both places. */
  lemma SaveKeepsSelectionInList(s: State, answer: Answer<()>)
    requires SelectionInList(s)
    ensures SelectionInList(AutoSave(s, answer))
  {
    if s.selected.Some? && answer.Succeeded? {
      var sel := s.selected.value;
      var i :| 0 <= i < |s.notes| && s.notes[i] == sel;
      var r := AutoSave(s, answer);
      assert r.notes[i] == r.selected.value;
    }
  }

  /** Edits followed by a successful save leave nothing unsaved, and the cache holds the edits. */
  lemma EditThenSave(s: State, content: string)
    requires s.selected.Some? && SelectionInList(s)
    ensures var r := AutoSave(EditContent(s, content), Succeeded(()));
      && !IsUnsaved(r) && r.saveStatus == Saved
      && r.selected.value.content == content
      && (exists i :: 0 <= i < |r.notes| && r.notes[i] == r.selected.value)
  {
    var e := EditContent(s, content);
    SaveKeepsSelectionInList(e, Succeeded(()));
    var r := AutoSave(e, Succeeded(()));
    var i :| 0 <= i < |r.notes| && r.notes[i] == r.selected.value;
  }

  /** `# <title>`, a blank line, then the note's plain text. */
  function ExportText(title: string, plainText: string): (r: string)
    ensures |r| == |title| + |plainText| + 4
    ensures r[..2] == "# " && r[2..|title| + 2] == title
    ensures r[|title| + 2..|title| + 4] == "\n\n" && r[|title| + 4..] == plainText
  {
    "# " + title + "\n\n" + plainText
  }

  /** Reads an export back: the heading line's title and the text after the blank line. */
  function ParseExport(text: string): Option<(string, string)> {
    if |text| < 2 || text[..2] != "# " then None
    else
      var rest := text[2..];
      match IndexOf(rest, '\n')
      case None => None
      case Some(i) =>
        if i + 1 < |rest| && rest[i + 1] == '\n' then Some((rest[..i], rest[i + 2..])) else None
  }

  /** An exported note whose title is a single line can be read back exactly. */
  lemma ExportRoundTrip(title: string, plainText: string)
    requires '\n' !in title
    ensures ParseExport(ExportText(title, plainText)) == Some((title, plainText))
  {
    var text := ExportText(title, plainText);
    var rest := title + ['\n'] + ("\n" + plainText);
    assert text[..2] == "# ";
    assert text[2..] == rest;
    IndexOfAfterPrefix(title, '\n', "\n" + plainText);
    assert rest[..|title|] == title;
    assert rest[|title| + 2..] == plainText;
  }

  /** `${editTitle || 'untitled'}.md` */
  function ExportFilename(title: string): (r: string)
    ensures |r| > 3 && r[|r| - 3..] == ".md"
    ensures r[..|r| - 3] == if title == "" then "untitled" else title
  {
    OrElse(title, "untitled") + ".md"
  }

  /** `handleExportNote`: with a selection, the file name and text to download; else nothing. */
  function HandleExportNote(s: State, plainText: string): (r: Option<(string, string)>)
    ensures s.selected.None? <==> r.None?
    ensures r.Some? ==> r.value.0 == ExportFilename(s.editTitle)
    ensures r.Some? ==> r.value.1 == ExportText(s.editTitle, plainText)
    ensures r.Some? && '\n' !in s.editTitle ==> ParseExport(r.value.1) == Some((s.editTitle, plainText))
  {
    if s.selected.None? then None
    else
      var text := ExportText(s.editTitle, plainText);
      assert '\n' !in s.editTitle ==> ParseExport(text) == Some((s.editTitle, plainText)) by {
        if '\n' !in s.editTitle {
          ExportRoundTrip(s.editTitle, plainText);
        }
      }
      Some((ExportFilename(s.editTitle), text))
  }
}

=== FILE: error_messages.dfy ===
/**
 * `getErrorMessage`: turns whatever was thrown or returned into a title and
 * a description for the error banner. It extracts a code and an original
 * message, looks the code up in the auth, API and note tables in that order,
 * and otherwise falls back to a per-context default.
 */
module ErrorMessages {
  import opened Wrappers
  import opened Text

  /**
   * The `error` argument: a string, an object whose `code` and `message`
   * properties are strings ("" when missing or falsy), or anything else
   * (`null`, `undefined`, an object with neither property).
   */
  datatype ErrorValue =
    | StringError(s: string)
    | ObjectError(code: string, message: string)
    | NoError

  /** The `{ title, description }` object shown to the user. */
  datatype ErrorText = ErrorText(title: string, description: string)

  const AUTH_ERRORS: map<string, string> := map[
    "auth/email-already-in-use" := "This email is already registered. Try signing in instead.",
    "auth/invalid-email" := "Please enter a valid email address.",
    "auth/operation-not-allowed" := "This sign-in method is not enabled. Please contact support.",
    "auth/weak-password" := "Password is too weak. Use at least 6 characters with a mix of letters and numbers.",
    "auth/user-disabled" := "This account has been disabled. Please contact support.",
    "auth/user-not-found" := "No account found with this email. Please sign up first.",
    "auth/wrong-password" := "Incorrect password. Please try again.",
    "auth/invalid-credential" := "Invalid email or password. Please check your credentials.",
    "auth/too-many-requests" := "Too many failed attempts. Please try again later.",
    "auth/network-request-failed" := "Network error. Please check your internet connection.",
    "auth/popup-closed-by-user" := "Sign-in was cancelled. Please try again.",
    "auth/requires-recent-login" := "Please sign in again to complete this action."
  ]

  const API_ERRORS: map<string, string> := map[
    "NETWORK_ERROR" := "Unable to connect to the server. Please check your internet connection.",
    "UNAUTHORIZED" := "Your session has expired. Please sign in again.",
    "FORBIDDEN" := "You don't have permission to perform this action.",
    "NOT_FOUND" := "The requested item was not found.",
    "SERVER_ERROR" := "Something went wrong on our end. Please try again later.",
    "TIMEOUT" := "The request timed out. Please try again.",
    "VALIDATION_ERROR" := "Please check your input and try again."
  ]

  const NOTE_ERRORS: map<string, string> := map[
    "LOAD_FAILED" := "Failed to load your notes. Please refresh the page.",
    "CREATE_FAILED" := "Failed to create note. Please try again.",
    "SAVE_FAILED" := "Failed to save your changes. Please try again.",
    "DELETE_FAILED" := "Failed to delete note. Please try again.",
    "SYNC_FAILED" := "Changes couldn't be synced. They'll be saved when you're back online."
  ]

  const AUTH_TITLE := "Authentication Error"
  const API_TITLE := "Request Failed"
  const NOTE_TITLE := "Note Error"

  /**
   * A match of `/\(([^)]+)\)/` occupying `s[i..j+1]`: "(" at `i`, ")" at `j`,
   * and between them a non-empty run free of ")".
   */
  predicate GroupAt(s: string, i: int, j: int) {
    0 <= i && i + 2 <= j < |s| && s[i] == '(' && s[j] == ')' && ')' !in s[i + 1..j]
  }

  /** The regular expression's attempt at position `i`: the closing index, if it matches there. */
  function MatchAt(s: string, i: nat): (r: Option<nat>)
    requires i < |s|
    ensures r.Some? ==> GroupAt(s, i, r.value)
    ensures r.None? ==> forall j :: !GroupAt(s, i, j)
  {
    if s[i] != '(' then None
    else match IndexOf(s[i + 1..], ')')
      case None =>
        assert forall j :: i + 1 <= j < |s| ==> s[j] == s[i + 1..][j - i - 1];
        None
      case Some(k) =>
        if k == 0 then
          None
        else
          assert s[i + 1..][..k] == s[i + 1..i + 1 + k];
          Some(i + 1 + k)
  }

  /** A match has exactly one closing position: the first ")" after the opening. */
  lemma GroupEndUnique(s: string, i: int, j: int, j': int)
    requires GroupAt(s, i, j) && GroupAt(s, i, j')
    ensures j == j'
  {
  }

  /** The leftmost match starting at or after `from`, as (opening, closing) positions. */
  function FindGroup(s: string, from: nat): (r: Option<(nat, nat)>)
    requires from <= |s|
    ensures r.Some? ==> from <= r.value.0 && GroupAt(s, r.value.0, r.value.1)
    ensures r.Some? ==> forall i, j :: from <= i < r.value.0 ==> !GroupAt(s, i, j)
    ensures r.None? ==> forall i, j :: from <= i ==> !GroupAt(s, i, j)
    decreases |s| - from
  {
    if from == |s| then None
    else match MatchAt(s, from)
      case Some(j) => Some((from, j))
      case None => FindGroup(s, from + 1)
  }

  /** `error.message.match(/\(([^)]+)\)/)?.[1]`, or "" when nothing matches. */
  function CodeInMessage(message: string): string {
    match FindGroup(message, 0)
    case None => ""
    case Some((i, j)) => message[i + 1..j]
  }

  /**
   * A message that reads `prefix(code)suffix`, with no "(" in the prefix and
   * a non-empty code free of ")", yields exactly that code, whatever follows.
   */
  lemma CodeInMessageFindsCode(prefix: string, code: string, suffix: string)
    requires '(' !in prefix && code != "" && ')' !in code
    ensures CodeInMessage(prefix + "(" + code + ")" + suffix) == code
  {
    var s := prefix + "(" + code + ")" + suffix;
    var i0, j0 := |prefix|, |prefix| + 1 + |code|;
    assert s[i0 + 1..j0] == code;
    assert GroupAt(s, i0, j0);
    var r := FindGroup(s, 0);
    assert r.Some?;
    var (i, j) := r.value;
    assert i == i0;
    GroupEndUnique(s, i0, j, j0);
  }

  /** A message without any "(…)" group yields no code. */
  lemma CodeInMessageEmptyWithoutGroup(message: string)
    requires forall i, j :: !GroupAt(message, i, j)
    ensures CodeInMessage(message) == ""
  {
  }

  /** The code and original message `getErrorMessage` extracts first. */
  datatype Extracted = Extracted(code: string, message: string)

  /**
   * A string is both code and message; an object with a code uses it (and
   * its message, "" if absent); an object with only a message takes the code
   * from the message's first parenthesised group.
   */
  function Extract(e: ErrorValue): (r: Extracted)
    ensures e.StringError? ==> r == Extracted(e.s, e.s)
    ensures e.ObjectError? && e.code != "" ==> r == Extracted(e.code, e.message)
    ensures e.ObjectError? && e.code == "" ==> r == Extracted(CodeInMessage(e.message), e.message)
    ensures e.NoError? ==> r == Extracted("", "")
  {
    match e
    case StringError(s) => Extracted(s, s)
    case ObjectError(code, message) =>
      if code != "" then Extracted(code, message)
      else if message != "" then Extracted(CodeInMessage(message), message)
      else Extracted("", "")
    case NoError => Extracted("", "")
  }

  const SIGN_IN_TITLE := "Sign In Failed"
  const SIGN_IN_DEFAULT := "Unable to sign in. Please check your credentials and try again."
  const SIGN_UP_TITLE := "Sign Up Failed"
  const SIGN_UP_DEFAULT := "Unable to create account. Please try again."
  const NOTES_DEFAULT := "Something went wrong with your notes. Please try again."
  const GENERAL_TITLE := "Error"
  const GENERAL_DEFAULT := "Something went wrong. Please try again."

  /** The fallback for a code in no table: the context's title and default text. */
  function ContextDefault(context: string, original: string): ErrorText {
    if context == "auth" then ErrorText(SIGN_IN_TITLE, OrElse(original, SIGN_IN_DEFAULT))
    else if context == "signup" then ErrorText(SIGN_UP_TITLE, OrElse(original, SIGN_UP_DEFAULT))
    else if context == "notes" then ErrorText(NOTE_TITLE, OrElse(original, NOTES_DEFAULT))
    else ErrorText(GENERAL_TITLE, OrElse(original, GENERAL_DEFAULT))
  }

  /** The three lookup tables, in the order `getErrorMessage` consults them. */
  datatype Tables = Tables(auth: map<string, string>, api: map<string, string>, note: map<string, string>)

  /** The application's tables. */
  const TABLES := Tables(AUTH_ERRORS, API_ERRORS, NOTE_ERRORS)

  /** `table[code]` is truthy on a table's own entries: the code is a key with a non-empty text. */
  predicate Hit(table: map<string, string>, code: string) {
    code in table && table[code] != ""
  }

  /** A code for which no table's lookup is truthy. */
  predicate Miss(t: Tables, code: string) {
    !Hit(t.auth, code) && !Hit(t.api, code) && !Hit(t.note, code)
  }

  /** Every entry of every table has a non-empty description. */
  predicate Described(t: Tables) {
    && (forall k :: k in t.auth ==> t.auth[k] != "")
    && (forall k :: k in t.api ==> t.api[k] != "")
    && (forall k :: k in t.note ==> t.note[k] != "")
  }

  /** No code is a key of two tables. */
  predicate Disjoint(t: Tables) {
    t.auth.Keys !! t.api.Keys && t.auth.Keys !! t.note.Keys && t.api.Keys !! t.note.Keys
  }

  /**
   * The resolution `getErrorMessage` performs, for any tables: the first
   * table whose entry for the extracted code is truthy gives the title and
   * description; on a miss the context's title is used, with the original
   * message if there is one.
   */
  function Resolve(t: Tables, e: ErrorValue, context: string): (r: ErrorText)
    ensures var code := Extract(e).code;
      && (Hit(t.auth, code) ==> r == ErrorText(AUTH_TITLE, t.auth[code]))
      && (!Hit(t.auth, code) && Hit(t.api, code) ==> r == ErrorText(API_TITLE, t.api[code]))
      && (!Hit(t.auth, code) && !Hit(t.api, code) && Hit(t.note, code) ==> r == ErrorText(NOTE_TITLE, t.note[code]))
    ensures var x := Extract(e);
      Miss(t, x.code) ==>
        (x.message != "" ==> r.description == x.message) && r.title == ContextDefault(context, "").title
  {
    var x := Extract(e);
    if Hit(t.auth, x.code) then ErrorText(AUTH_TITLE, t.auth[x.code])
    else if Hit(t.api, x.code) then ErrorText(API_TITLE, t.api[x.code])
    else if Hit(t.note, x.code) then ErrorText(NOTE_TITLE, t.note[x.code])
    else ContextDefault(context, x.message)
  }

  /** `getErrorMessage(error, context)` */
  function GetErrorMessage(e: ErrorValue, context: string): (r: ErrorText)
    ensures var code := Extract(e).code;
      && (code in AUTH_ERRORS ==> r == ErrorText(AUTH_TITLE, AUTH_ERRORS[code]))
      && (code !in AUTH_ERRORS && code in API_ERRORS ==> r == ErrorText(API_TITLE, API_ERRORS[code]))
      && (code !in AUTH_ERRORS && code !in API_ERRORS && code in NOTE_ERRORS ==> r == ErrorText(NOTE_TITLE, NOTE_ERRORS[code]))
    ensures var x := Extract(e);
      x.code !in AUTH_ERRORS && x.code !in API_ERRORS && x.code !in NOTE_ERRORS ==>
        (x.message != "" ==> r.description == x.message) && r.title == ContextDefault(context, "").title
  {
    TablesDescribed();
    Resolve(TABLES, e, context)
  }

  /** Whatever the tables, every result has a non-empty title and description. */
  lemma ResolveNeverEmpty(t: Tables, e: ErrorValue, context: string)
    ensures Resolve(t, e, context).title != ""
    ensures Resolve(t, e, context).description != ""
  {
  }

  /** With disjoint tables, every truthy entry of every table is found under its own title. */
  lemma ResolveFindsEveryEntry(t: Tables, e: ErrorValue, context: string)
    requires Disjoint(t)
    ensures var code := Extract(e).code;
      && (Hit(t.api, code) ==> Resolve(t, e, context) == ErrorText(API_TITLE, t.api[code]))
      && (Hit(t.note, code) ==> Resolve(t, e, context) == ErrorText(NOTE_TITLE, t.note[code]))
  {
    var code := Extract(e).code;
    if code in t.api {
      assert code !in t.auth.Keys;
    }
    if code in t.note {
      assert code !in t.auth.Keys && code !in t.api.Keys;
    }
  }

  /** Key sets told apart by whether their first character is `c`. */
  lemma DisjointByLead(a: set<string>, b: set<string>, c: char)
    requires forall k :: k in a ==> |k| > 0 && k[0] == c
    requires forall k :: k in b ==> |k| > 0 && k[0] != c
    ensures a !! b
  {
  }

  /** Key sets told apart by whether their first character is an upper-case ASCII letter. */
  lemma DisjointByCase(a: set<string>, b: set<string>)
    requires forall k :: k in a ==> |k| > 0 && 'A' <= k[0] <= 'Z'
    requires forall k :: k in b ==> |k| > 0 && !('A' <= k[0] <= 'Z')
    ensures a !! b
  {
  }

  /** Every key begins with `c`. */
  predicate KeysLead(m: map<string, string>, c: char) {
    forall k :: k in m ==> |k| > 0 && k[0] == c
  }

  /** Every key begins with an upper-case ASCII letter. */
  predicate KeysUpperCase(m: map<string, string>) {
    forall k :: k in m ==> |k| > 0 && 'A' <= k[0] <= 'Z'
  }

  /**
   * The naming convention of the codes: auth codes read "auth/…", API and
   * note codes are upper-case identifiers.
   */
  predicate CodeShapes(t: Tables) {
    KeysLead(t.auth, 'a') && KeysUpperCase(t.api) && KeysUpperCase(t.note)
  }

  /** Under the naming convention, only the API and note tables could share a code. */
  lemma ShapedTablesDisjoint(t: Tables)
    requires CodeShapes(t) && t.api.Keys !! t.note.Keys
    ensures Disjoint(t)
  {
    DisjointByLead(t.auth.Keys, t.api.Keys, 'a');
    DisjointByLead(t.auth.Keys, t.note.Keys, 'a');
  }

  /** Every auth code begins with a lower-case "a": they all read "auth/…". */
  lemma AuthCodesStartWithA()
    ensures KeysLead(AUTH_ERRORS, 'a')
  {
  }

  /** Every API code begins with an upper-case letter. */
  lemma ApiCodesStartUpperCase()
    ensures KeysUpperCase(API_ERRORS)
  {
  }

  /** Likewise every note code. */
  lemma NoteCodesStartUpperCase()
    ensures KeysUpperCase(NOTE_ERRORS)
  {
  }

  /** The application's codes follow the naming convention. */
  lemma TablesShaped()
    ensures CodeShapes(TABLES)
  {
    AuthCodesStartWithA();
    ApiCodesStartUpperCase();
    NoteCodesStartUpperCase();
  }

  /** No note code is an API code. */
  lemma NoteCodesNotApiCodes()
    ensures API_ERRORS.Keys !! NOTE_ERRORS.Keys
  {
    assert NOTE_ERRORS.Keys == {"LOAD_FAILED", "CREATE_FAILED", "SAVE_FAILED", "DELETE_FAILED", "SYNC_FAILED"};
    assert "LOAD_FAILED" !in API_ERRORS;
    assert "CREATE_FAILED" !in API_ERRORS;
    assert "SAVE_FAILED" !in API_ERRORS;
    assert "DELETE_FAILED" !in API_ERRORS;
    assert "SYNC_FAILED" !in API_ERRORS;
  }

  /** No code appears in two of the application's tables, so the lookup order never hides an entry. */
  lemma TablesDisjoint()
    ensures Disjoint(TABLES)
  {
    TablesShaped();
    NoteCodesNotApiCodes();
    ShapedTablesDisjoint(TABLES);
  }

  lemma AuthDescriptionsNonEmpty()
    ensures forall k :: k in AUTH_ERRORS ==> AUTH_ERRORS[k] != ""
  {
  }

  lemma ApiDescriptionsNonEmpty()
    ensures forall k :: k in API_ERRORS ==> API_ERRORS[k] != ""
  {
  }

  lemma NoteDescriptionsNonEmpty()
    ensures forall k :: k in NOTE_ERRORS ==> NOTE_ERRORS[k] != ""
  {
  }

  /** Every entry of the application's tables has a non-empty description. */
  lemma TablesDescribed()
    ensures Described(TABLES)
  {
    AuthDescriptionsNonEmpty();
    ApiDescriptionsNonEmpty();
    NoteDescriptionsNonEmpty();
  }

  /** Every result has a non-empty title and a non-empty description. */
  lemma ResultNeverEmpty(e: ErrorValue, context: string)
    ensures GetErrorMessage(e, context).title != ""
    ensures GetErrorMessage(e, context).description != ""
  {
    ResolveNeverEmpty(TABLES, e, context);
  }

  /** Any API or note code is reported under its own table's title and text. */
  lemma EveryEntryReported(e: ErrorValue, context: string)
    ensures var code := Extract(e).code;
      && (code in API_ERRORS ==> GetErrorMessage(e, context) == ErrorText(API_TITLE, API_ERRORS[code]))
      && (code in NOTE_ERRORS ==> GetErrorMessage(e, context) == ErrorText(NOTE_TITLE, NOTE_ERRORS[code]))
  {
    TablesDescribed();
    TablesDisjoint();
    ResolveFindsEveryEntry(TABLES, e, context);
  }

  /** A context other than auth, signup and notes gets the general result. */
  lemma UnknownContextIsGeneral(e: ErrorValue, context: string)
    requires context != "auth" && context != "signup" && context != "notes"
    ensures GetErrorMessage(e, context) == GetErrorMessage(e, "general")
  {
  }

  /** On a miss with no original message, the description is the context's fixed default. */
  lemma MissWithoutMessageUsesDefault(e: ErrorValue, context: string)
    requires Extract(e).message == ""
    requires Extract(e).code !in AUTH_ERRORS && Extract(e).code !in API_ERRORS && Extract(e).code !in NOTE_ERRORS
    ensures GetErrorMessage(e, context) == ContextDefault(context, "")
    ensures GetErrorMessage(e, context).description != ""
  {
  }

  const WRONG_PASSWORD := "auth/wrong-password"
  const WRONG_PASSWORD_TEXT := "Incorrect password. Please try again."

  lemma WrongPasswordEntry()
    ensures WRONG_PASSWORD in AUTH_ERRORS
    ensures AUTH_ERRORS[WRONG_PASSWORD] == WRONG_PASSWORD_TEXT
  {
  }

  /** The code of a Firebase message `… (auth/wrong-password).` is read from its parentheses. */
  lemma FirebaseCodeExtracted(prefix: string)
    requires '(' !in prefix
    ensures Extract(ObjectError("", prefix + "(" + WRONG_PASSWORD + ")" + ".")).code == WRONG_PASSWORD
  {
    assert ')' !in WRONG_PASSWORD;
    CodeInMessageFindsCode(prefix, WRONG_PASSWORD, ".");
  }

  /** Such a message is reported with the wrong-password entry of the auth table. */
  lemma FirebaseMessageRecognised(prefix: string)
    requires '(' !in prefix
    ensures GetErrorMessage(ObjectError("", prefix + "(" + WRONG_PASSWORD + ")" + "."), "auth")
      == ErrorText(AUTH_TITLE, WRONG_PASSWORD_TEXT)
  {
    FirebaseCodeExtracted(prefix);
    WrongPasswordEntry();
  }

  const FIREBASE_PREFIX := "Firebase: Error "

  /** The string Firebase Auth's client throws for `code`. */
  function FirebaseText(code: string): (r: string)
    ensures |r| > 1 && r[0] == 'F' && r[1] == 'i'
  {
    FIREBASE_PREFIX + "(" + code + ")" + "."
  }

  /**
   * No Firebase error text is itself a code: it begins with "F", not "a",
   * so it is no auth code, and with "Fi", not two upper-case letters, so it
   * is no API or note code.
   */
  lemma FirebaseTextIsNoCode(code: string)
    ensures FirebaseText(code) !in AUTH_ERRORS
    ensures FirebaseText(code) !in API_ERRORS && FirebaseText(code) !in NOTE_ERRORS
  {
  }

  /**
   * A string error is its own code and its own message. The login and
   * sign-up pages pass the Firebase text itself, a string, so whatever the
   * code it is shown as it is under "Sign In Failed"; the same text as an
   * object's message is reported with the auth table's entry, here the
   * wrong-password one.
   */
  lemma FirebaseStringShownRaw(code: string)
    ensures GetErrorMessage(StringError(FirebaseText(code)), "auth") == ErrorText(SIGN_IN_TITLE, FirebaseText(code))
    ensures GetErrorMessage(ObjectError("", FirebaseText(WRONG_PASSWORD)), "auth")
      == ErrorText(AUTH_TITLE, WRONG_PASSWORD_TEXT)
  {
    FirebaseTextIsNoCode(code);
    assert '(' !in FIREBASE_PREFIX;
    FirebaseMessageRecognised(FIREBASE_PREFIX);
  }

  // The tables and the context defaults are plain JavaScript objects, and
  // `table[key]` also finds what every object inherits from
  // `Object.prototype`. The members below model the lookups as written, so
  // that the consequence can be stated; `GetErrorMessage` above is the
  // intended behaviour, which only consults a table's own entries.

  /** Property names every plain object inherits from `Object.prototype`. */
  const INHERITED_NAMES: set<string> := {
    "constructor", "hasOwnProperty", "isPrototypeOf", "propertyIsEnumerable",
    "toLocaleString", "toString", "valueOf", "__proto__",
    "__defineGetter__", "__defineSetter__", "__lookupGetter__", "__lookupSetter__"
  }

  /** A description as the code can produce it: a string, or an inherited method or prototype object. */
  datatype DescriptionAsWritten = Str(s: string) | InheritedMember

  /** The returned value as the code can produce it. */
  datatype ResultAsWritten =
    | Banner(title: string, description: DescriptionAsWritten)
    | InheritedContext

  /**
   * `table[code]` is truthy: a non-empty own entry, or, when there is no own
   * entry to shadow it, an inherited member.
   */
  predicate HitAsWritten(table: map<string, string>, code: string) {
    if code in table then table[code] != "" else code in INHERITED_NAMES
  }

  /** `table[code]`: the own entry if there is one, else the inherited member. */
  function DescribeAsWritten(table: map<string, string>, code: string): DescriptionAsWritten {
    if code in table then Str(table[code]) else InheritedMember
  }

  /** The resolution with the plain-object lookups the code actually performs, for any tables. */
  function ResolveAsWritten(t: Tables, e: ErrorValue, context: string): (r: ResultAsWritten)
    ensures Extract(e).code in INHERITED_NAMES && Extract(e).code !in t.auth ==>
      r == Banner(AUTH_TITLE, InheritedMember)
    ensures Hit(t.auth, Extract(e).code) ==> r == Banner(AUTH_TITLE, Str(t.auth[Extract(e).code]))
    ensures Extract(e).code in t.auth && t.auth[Extract(e).code] == "" ==> r.Banner? ==> r.title != AUTH_TITLE
    ensures Extract(e).code !in INHERITED_NAMES && context !in INHERITED_NAMES ==>
      var i := Resolve(t, e, context); r == Banner(i.title, Str(i.description))
  {
    var x := Extract(e);
    if HitAsWritten(t.auth, x.code) then Banner(AUTH_TITLE, DescribeAsWritten(t.auth, x.code))
    else if HitAsWritten(t.api, x.code) then Banner(API_TITLE, DescribeAsWritten(t.api, x.code))
    else if HitAsWritten(t.note, x.code) then Banner(NOTE_TITLE, DescribeAsWritten(t.note, x.code))
    else if context in INHERITED_NAMES then InheritedContext
    else
      var d := ContextDefault(context, x.message);
      Banner(d.title, Str(d.description))
  }

  /** No inherited property name begins with "a" or with an upper-case letter. */
  lemma InheritedNamesShape()
    ensures forall k :: k in INHERITED_NAMES ==> |k| > 0 && k[0] != 'a' && !('A' <= k[0] <= 'Z')
  {
  }

  /** No inherited property name is a key of any table. */
  predicate AvoidsInherited(t: Tables) {
    INHERITED_NAMES !! t.auth.Keys && INHERITED_NAMES !! t.api.Keys && INHERITED_NAMES !! t.note.Keys
  }

  /** Under the naming convention no inherited property name can be a code. */
  lemma ShapedTablesAvoidInherited(t: Tables)
    requires CodeShapes(t)
    ensures AvoidsInherited(t)
  {
    InheritedNamesShape();
    DisjointByLead(t.auth.Keys, INHERITED_NAMES, 'a');
    DisjointByCase(t.api.Keys, INHERITED_NAMES);
    DisjointByCase(t.note.Keys, INHERITED_NAMES);
  }

  /** No inherited property name is a code of the application's tables. */
  lemma InheritedNamesAreNoCodes()
    ensures AvoidsInherited(TABLES)
  {
    TablesShaped();
    ShapedTablesAvoidInherited(TABLES);
  }

  /** `getErrorMessage` with the plain-object lookups it actually performs. */
  function GetErrorMessageAsWritten(e: ErrorValue, context: string): (r: ResultAsWritten)
    ensures Extract(e).code in INHERITED_NAMES ==> r == Banner(AUTH_TITLE, InheritedMember)
  {
    InheritedNamesAreNoCodes();
    ResolveAsWritten(TABLES, e, context)
  }

  /**
   * The string error "constructor" is in no table, yet the code reports it
   * as an authentication error whose description is an inherited method, where the
   * intended result is the auth context's fallback showing the message.
   */
  lemma InheritedCodeMisreported()
    ensures "constructor" !in AUTH_ERRORS
    ensures GetErrorMessageAsWritten(StringError("constructor"), "auth") == Banner(AUTH_TITLE, InheritedMember)
    ensures GetErrorMessage(StringError("constructor"), "auth") == ErrorText(SIGN_IN_TITLE, "constructor")
  {
    InheritedNamesAreNoCodes();
  }

  /** A context named "toString" yields the inherited method instead of the general banner. */
  lemma InheritedContextMisreported()
    ensures GetErrorMessageAsWritten(NoError, "toString") == InheritedContext
    ensures GetErrorMessage(NoError, "toString") == GetErrorMessage(NoError, "general")
  {
    assert "" !in AUTH_ERRORS && "" !in API_ERRORS && "" !in NOTE_ERRORS;
  }

  /** Away from inherited names, the code as written and the intended model agree. */
  lemma AsWrittenAgreesOffPrototype(e: ErrorValue, context: string)
    requires Extract(e).code !in INHERITED_NAMES && context !in INHERITED_NAMES
    ensures var r := GetErrorMessage(e, context);
      GetErrorMessageAsWritten(e, context) == Banner(r.title, Str(r.description))
  {
  }
}

=== FILE: note_sidebar.dfy ===
/**
 * The views `NoteSidebar` derives from the note list it is given: the user's
 * display name and initial, the search filter, the newest-first order, each
 * note's title label and text preview, and the delete-confirmation dialog.
 */
module NoteSidebar {
  import opened Wrappers
  import opened Text
  import opened NoteModel

  /** The signed-in user as the sidebar reads it ("" for a missing `displayName` or `email`). */
  datatype User = User(displayName: string, email: string)

  /** `user?.displayName || user?.email?.split('@')[0] || 'User'` */
  function DisplayName(user: Option<User>): (r: string)
    ensures r != ""
    ensures user.Some? && user.value.displayName != "" ==> r == user.value.displayName
    ensures user.Some? && user.value.displayName == "" && FirstField(user.value.email, '@') != "" ==>
      r == FirstField(user.value.email, '@')
    ensures user.None? || (user.value.displayName == "" && FirstField(user.value.email, '@') == "") ==> r == "User"
  {
    if user.Some? && user.value.displayName != "" then user.value.displayName
    else if user.Some? && FirstField(user.value.email, '@') != "" then FirstField(user.value.email, '@')
    else "User"
  }

  /** Without a display name, the name shown is the local part of the e-mail address. */
  lemma DisplayNameFromEmail(local: string, domain: string)
    requires local != "" && '@' !in local && '@' !in domain
    ensures DisplayName(Some(User("", local + "@" + domain))) == local
  {
    SplitJoin([local, domain], '@');
    assert Join([local, domain], '@') == local + "@" + domain;
  }

  /** `displayName.charAt(0).toUpperCase()`: one character, never a lower-case ASCII letter. */
  function Initial(user: Option<User>): (r: string)
    ensures |r| == 1
    ensures !('a' <= r[0] <= 'z')
    ensures LowerChar(r[0]) == LowerChar(DisplayName(user)[0])
  {
    [UpperChar(DisplayName(user)[0])]
  }

  /**
   * The search test: the lower-cased query occurs in the lower-cased title or
   * content, an occurrence being an infix in the sense of `IsInfix`.
   */
  function Matches(note: Note, query: string): (r: bool)
    ensures r <==> IsInfix(Lower(query), Lower(note.title)) || IsInfix(Lower(query), Lower(note.content))
  {
    ContainsIsInfix(Lower(note.title), Lower(query));
    ContainsIsInfix(Lower(note.content), Lower(query));
    Contains(Lower(note.title), Lower(query)) || Contains(Lower(note.content), Lower(query))
  }

  /** The `filter` callback for one query. */
  function MatchesQuery(query: string): Note -> bool {
    (n: Note) => Matches(n, query)
  }

  /** `notes.filter(note => …includes(searchQuery.toLowerCase()))` */
  function FilteredNotes(notes: seq<Note>, query: string): (r: seq<Note>)
    ensures forall x :: x in r <==> x in notes && Matches(x, query)
    ensures forall x :: multiset(r)[x] == if Matches(x, query) then multiset(notes)[x] else 0
  {
    var r := Filter(notes, MatchesQuery(query));
    forall x ensures x in r <==> x in notes && Matches(x, query) {
      FilterMembership(notes, MatchesQuery(query), x);
    }
    r
  }

  /**
   * The filter keeps the list's order: it distributes over concatenation,
   * and a single note stays exactly when it matches.
   */
  lemma FilteredNotesInOrder(a: seq<Note>, b: seq<Note>, query: string, n: Note)
    ensures FilteredNotes(a + b, query) == FilteredNotes(a, query) + FilteredNotes(b, query)
    ensures FilteredNotes([n], query) == if Matches(n, query) then [n] else []
  {
    FilterAppend(a, b, MatchesQuery(query));
    assert [n][1..] == [];
  }

  /** The empty query keeps every note, in order. */
  lemma {:induction false} EmptyQueryKeepsAll(notes: seq<Note>)
    ensures FilteredNotes(notes, "") == notes
    decreases |notes|
  {
    if notes != [] {
      EmptyQueryKeepsAll(notes[1..]);
      var n := notes[0];
      assert Lower("") == "";
      assert Lower(n.title)[..0] == "";
      assert Matches(n, "");
    }
  }

  /**
   * `filteredNotes.sort(...)`: the filtered notes, newest first, with the
   * notes of one timestamp in their filtered order.
   */
  function SortedNotes(notes: seq<Note>, query: string): (r: seq<Note>)
    ensures SortedDesc(r)
    ensures multiset(r) == multiset(FilteredNotes(notes, query))
    ensures forall x :: x in r <==> x in notes && Matches(x, query)
    ensures forall v :: Stamped(r, v) == Stamped(FilteredNotes(notes, query), v)
  {
    var r := SortByCreatedDesc(FilteredNotes(notes, query));
    forall v ensures Stamped(r, v) == Stamped(FilteredNotes(notes, query), v) {
      SortStable(FilteredNotes(notes, query), v);
    }
    assert forall x :: x in r <==> x in multiset(r);
    assert forall x :: x in FilteredNotes(notes, query) <==> x in multiset(FilteredNotes(notes, query));
    r
  }

  /** No "<" is followed, anywhere later, by a ">": no `<…>` span remains. */
  predicate TagFree(s: string) {
    forall i, j :: 0 <= i < j < |s| && s[i] == '<' ==> s[j] != '>'
  }

  /**
   * `s.replace(/<[^>]*>/g, '')`: scanning left to right, each "<" with a ">"
   * somewhere after it is removed together with everything up to the first
   * such ">"; a "<" with no ">" after it stays.
   */
  function StripTags(s: string): (r: string)
    ensures TagFree(r)
    ensures |r| <= |s|
    ensures forall c :: c in r ==> c in s
    decreases |s|
  {
    if s == [] then []
    else if s[0] == '<' && '>' in s then
      var j := IndexOf(s, '>').value;
      var rest := StripTags(s[j + 1..]);
      assert forall c :: c in rest ==> c in s by {
        forall c | c in rest ensures c in s {
          var k :| 0 <= k < |s[j + 1..]| && s[j + 1..][k] == c;
          assert s[j + 1 + k] == c;
        }
      }
      rest
    else
      var rest := StripTags(s[1..]);
      assert forall c :: c in rest ==> c in s by {
        forall c | c in rest ensures c in s {
          var k :| 0 <= k < |s[1..]| && s[1..][k] == c;
          assert s[1 + k] == c;
        }
      }
      assert s[0] == '<' ==> '>' !in rest;
      [s[0]] + rest
  }

  /** Text with no tag span in it is left exactly as it is. */
  lemma {:induction false} StripTagsKeepsTagFree(s: string)
    requires TagFree(s)
    ensures StripTags(s) == s
    decreases |s|
  {
    if s != [] {
      if s[0] == '<' {
        assert '>' !in s by {
          forall k | 0 <= k < |s| ensures s[k] != '>' {
            if k > 0 {
              assert s[0] == '<';
            }
          }
        }
      }
      assert TagFree(s[1..]) by {
        forall i, j | 0 <= i < j < |s[1..]| && s[1..][i] == '<' ensures s[1..][j] != '>' {
          assert s[i + 1] == '<';
        }
      }
      StripTagsKeepsTagFree(s[1..]);
    }
  }

  /** Stripping twice is stripping once. */
  lemma StripTagsIdempotent(s: string)
    ensures StripTags(StripTags(s)) == StripTags(s)
  {
    StripTagsKeepsTagFree(StripTags(s));
  }

  /** Text before the first "<" is kept as it is. */
  lemma {:induction false} StripTagsKeepsPlainPrefix(a: string, b: string)
    requires '<' !in a
    ensures StripTags(a + b) == a + StripTags(b)
    decreases |a|
  {
    if a == [] {
      assert a + b == b;
    } else {
      assert (a + b)[0] == a[0];
      assert (a + b)[1..] == a[1..] + b;
      StripTagsKeepsPlainPrefix(a[1..], b);
      assert a == [a[0]] + a[1..];
    }
  }

  /** A leading span `<t>` with no ">" inside is removed whole. */
  lemma StripTagsDropsLeadingSpan(t: string, b: string)
    requires '>' !in t
    ensures StripTags(['<'] + t + ['>'] + b) == StripTags(b)
  {
    var s := ['<'] + t + ['>'] + b;
    IndexOfAfterPrefix(['<'] + t, '>', b);
    assert s[0] == '<' && s[|t| + 1] == '>';
    assert s[|t| + 2..] == b;
  }

  /**
   * A span `<t>` with no ">" inside is removed, and the text before it,
   * free of "<", is kept.
   */
  lemma StripTagsDropsSpan(a: string, t: string, b: string)
    requires '<' !in a && '>' !in t
    ensures StripTags(a + "<" + t + ">" + b) == a + StripTags(b)
  {
    var s := ['<'] + t + ['>'] + b;
    var whole := a + "<" + t + ">" + b;
    assert |whole| == |a + s|;
    forall i | 0 <= i < |whole|
      ensures whole[i] == (a + s)[i]
    {
    }
    assert whole == a + s;
    StripTagsKeepsPlainPrefix(a, s);
    StripTagsDropsLeadingSpan(t, b);
  }

  /** Text with no ">" at all, such as a trailing "<", is kept whole. */
  lemma StripTagsWithoutClose(s: string)
    requires '>' !in s
    ensures StripTags(s) == s
  {
    StripTagsKeepsTagFree(s);
  }

  /** `note.content?.replace(/<[^>]*>/g, '').substring(0, 50) || 'No content'` */
  function Preview(content: string): (r: string)
    ensures StripTags(content) == "" ==> r == "No content"
    ensures StripTags(content) != "" ==>
      var text := StripTags(content);
      && |r| == (if |text| < 50 then |text| else 50)
      && r == text[..|r|]
    ensures |r| <= 50
  {
    var text := StripTags(content);
    var cut := if |text| < 50 then text else text[..50];
    if cut == "" then "No content" else cut
  }

  /** `note.title || 'Untitled'` */
  function TitleLabel(title: string): (r: string)
    ensures r != ""
    ensures title != "" ==> r == title
    ensures title == "" ==> r == "Untitled"
  {
    OrElse(title, "Untitled")
  }

  /** The `deleteAlert` state: whether the dialog is open, and for which note. */
  datatype DeleteDialog = DeleteDialog(open: bool, note: Option<Note>)

  const CLOSED := DeleteDialog(false, None)

  /** The dialog after a handler, and the id handed to `onDeleteNote`, if any. */
  datatype DialogStep = DialogStep(dialog: DeleteDialog, deleteRequested: Option<NoteId>)

  /** `handleDeleteClick`: opens the dialog for that note. */
  function HandleDeleteClick(note: Note): (r: DeleteDialog)
    ensures r.open && r.note == Some(note)
  {
    DeleteDialog(true, Some(note))
  }

  /** `confirmDelete`: asks for deletion of the pending note, if there is one, and closes. */
  function ConfirmDelete(d: DeleteDialog): (r: DialogStep)
    ensures r.dialog == CLOSED
    ensures d.note.None? ==> r.deleteRequested == None
    ensures d.note.Some? ==> r.deleteRequested == Some(d.note.value.id)
  {
    var requested := if d.note.Some? then Some(d.note.value.id) else None;
    DialogStep(CLOSED, requested)
  }

  /** `cancelDelete`: closes without asking for anything. */
  function CancelDelete(d: DeleteDialog): (r: DialogStep)
    ensures r.dialog == CLOSED && r.deleteRequested == None
  {
    DialogStep(CLOSED, None)
  }

  /** Clicking delete on a note and confirming requests exactly that note's id. */
  lemma ClickThenConfirm(note: Note)
    ensures ConfirmDelete(HandleDeleteClick(note)) == DialogStep(CLOSED, Some(note.id))
    ensures CancelDelete(HandleDeleteClick(note)) == DialogStep(CLOSED, None)
  {
  }
}

=== FILE: notes.dfy ===
/**
 * The note record shared by the backend store and the client cache, and the
 * list operations both sides apply to it: the descending order by creation
 * time, the rewrite of one note's fields by id, and the removal by id.
 * Timestamps are integers (the server's `new Date()` and Firestore's
 * `Timestamp` are both reduced to a number on one clock).
 */
module NoteModel {
  import opened Wrappers

  type NoteId = string
  type Uid = string

  /** A stored note; `userId` is the `user_id` field naming its owner. */
  datatype Note = Note(
    id: NoteId,
    title: string,
    content: string,
    userId: Uid,
    createdAt: int,
    updatedAt: Option<int>)

  /** Most recent first: `created_at` never increases along the list. */
  predicate SortedDesc(s: seq<Note>) {
    forall i, j :: 0 <= i < j < |s| ==> s[i].createdAt >= s[j].createdAt
  }

  /** Putting a note at least as new as the head in front of a newest-first list keeps it newest first. */
  lemma SortedCons(x: Note, t: seq<Note>)
    requires SortedDesc(t) && (t == [] || x.createdAt >= t[0].createdAt)
    ensures SortedDesc([x] + t)
  {
    forall i, j | 0 <= i < j < |[x] + t|
      ensures ([x] + t)[i].createdAt >= ([x] + t)[j].createdAt
    {
      if i > 0 {
        assert ([x] + t)[i] == t[i - 1] && ([x] + t)[j] == t[j - 1];
      } else if j > 1 {
        assert t[0].createdAt >= t[j - 1].createdAt;
      }
    }
  }

  /**
   * Places `n` in front of the first note that is not newer than it, so that
   * among equal timestamps the earlier-placed note stays first.
   */
  function InsertDesc(n: Note, s: seq<Note>): (r: seq<Note>)
    requires SortedDesc(s)
    ensures SortedDesc(r)
    ensures multiset(r) == multiset(s) + multiset{n}
    ensures |r| == |s| + 1 && (r[0] == n || (s != [] && r[0] == s[0]))
    decreases |s|
  {
    if s == [] || n.createdAt >= s[0].createdAt then
      SortedCons(n, s);
      [n] + s
    else
      var t := InsertDesc(n, s[1..]);
      assert s == [s[0]] + s[1..];
      assert t[0].createdAt <= s[0].createdAt;
      SortedCons(s[0], t);
      [s[0]] + t
  }

  /**
   * Sorts by `created_at`, newest first, keeping the relative order of notes
   * with equal timestamps (the stable comparator sort of
   * `(a, b) => dateB - dateA`).
   */
  function SortByCreatedDesc(s: seq<Note>): (r: seq<Note>)
    ensures SortedDesc(r)
    ensures multiset(r) == multiset(s)
    decreases |s|
  {
    if s == [] then []
    else
      assert s == [s[0]] + s[1..];
      InsertDesc(s[0], SortByCreatedDesc(s[1..]))
  }

  /** A list already newest-first is left exactly as it is. */
  lemma {:induction false} SortKeepsSorted(s: seq<Note>)
    requires SortedDesc(s)
    ensures SortByCreatedDesc(s) == s
    decreases |s|
  {
    if s != [] {
      SortKeepsSorted(s[1..]);
    }
  }

  /** Sorting twice is sorting once. */
  lemma SortIdempotent(s: seq<Note>)
    ensures SortByCreatedDesc(SortByCreatedDesc(s)) == SortByCreatedDesc(s)
  {
    SortKeepsSorted(SortByCreatedDesc(s));
  }

  /** The notes of `s` created at time `v`, in their order in `s`. */
  function Stamped(s: seq<Note>, v: int): (r: seq<Note>)
    ensures forall i :: 0 <= i < |r| ==> r[i].createdAt == v
    decreases |s|
  {
    if s == [] then []
    else
      (if s[0].createdAt == v then [s[0]] else []) + Stamped(s[1..], v)
  }

  /** Picking from `[x] + t` looks at `x`, then picks from `t`. */
  lemma StampedCons(x: Note, t: seq<Note>, v: int)
    ensures Stamped([x] + t, v) == (if x.createdAt == v then [x] else []) + Stamped(t, v)
  {
    assert ([x] + t)[0] == x;
    assert ([x] + t)[1..] == t;
  }

  /** Two notes of different timestamps can trade places without changing any timestamp's picks. */
  lemma StampedCommute(n: Note, x: Note, rest: seq<Note>, v: int)
    requires n.createdAt != x.createdAt
    ensures Stamped([x] + ([n] + rest), v) == Stamped([n] + ([x] + rest), v)
  {
    StampedCons(x, [n] + rest, v);
    StampedCons(n, rest, v);
    StampedCons(n, [x] + rest, v);
    StampedCons(x, rest, v);
    if x.createdAt == v {
      assert Stamped([x] + ([n] + rest), v) == [x] + Stamped(rest, v);
    } else if n.createdAt == v {
      assert Stamped([x] + ([n] + rest), v) == [n] + Stamped(rest, v);
    } else {
      assert Stamped([x] + ([n] + rest), v) == Stamped(rest, v);
    }
  }

  /** Inserting `n` keeps the notes of each timestamp in the order of `[n] + s`. */
  lemma {:induction false} InsertDescStable(n: Note, s: seq<Note>, v: int)
    requires SortedDesc(s)
    ensures Stamped(InsertDesc(n, s), v) == Stamped([n] + s, v)
    decreases |s|
  {
    if s != [] && n.createdAt < s[0].createdAt {
      var rest := s[1..];
      InsertDescStable(n, rest, v);
      StampedCons(s[0], InsertDesc(n, rest), v);
      StampedCons(s[0], [n] + rest, v);
      StampedCommute(n, s[0], rest, v);
      assert s == [s[0]] + rest;
    }
  }

  /**
   * The sort is stable: the notes of any one timestamp come out in the order
   * they went in.
   */
  lemma {:induction false} SortStable(s: seq<Note>, v: int)
    ensures Stamped(SortByCreatedDesc(s), v) == Stamped(s, v)
    decreases |s|
  {
    if s != [] {
      SortStable(s[1..], v);
      InsertDescStable(s[0], SortByCreatedDesc(s[1..]), v);
      StampedCons(s[0], SortByCreatedDesc(s[1..]), v);
      StampedCons(s[0], s[1..], v);
      assert s == [s[0]] + s[1..];
    }
  }

  /** The notes of `s` for which `keep` holds, in their original order. */
  function Filter(s: seq<Note>, keep: Note -> bool): (r: seq<Note>)
    ensures |r| <= |s|
    ensures forall x :: multiset(r)[x] == if keep(x) then multiset(s)[x] else 0
    decreases |s|
  {
    if s == [] then []
    else
      assert s == [s[0]] + s[1..];
      if keep(s[0]) then [s[0]] + Filter(s[1..], keep) else Filter(s[1..], keep)
  }

  /** A note of `s` is kept by `Filter` exactly when `keep` holds of it. */
  lemma FilterMembership(s: seq<Note>, keep: Note -> bool, x: Note)
    ensures x in Filter(s, keep) <==> x in s && keep(x)
  {
    assert x in Filter(s, keep) <==> multiset(Filter(s, keep))[x] > 0;
    assert x in s <==> multiset(s)[x] > 0;
  }

  /** Filtering distributes over concatenation: the kept notes stay in their order. */
  lemma {:induction false} FilterAppend(s: seq<Note>, t: seq<Note>, keep: Note -> bool)
    ensures Filter(s + t, keep) == Filter(s, keep) + Filter(t, keep)
    decreases |s|
  {
    if s == [] {
      assert s + t == t;
    } else {
      assert (s + t)[0] == s[0];
      assert (s + t)[1..] == s[1..] + t;
      FilterAppend(s[1..], t, keep);
    }
  }

  /** The test `note => note.id !== id`. */
  function OtherId(id: NoteId): Note -> bool {
    (n: Note) => n.id != id
  }

  /** `notes.filter(note => note.id !== id)` */
  function RemoveById(notes: seq<Note>, id: NoteId): (r: seq<Note>)
    ensures forall x: Note :: x in r <==> x in notes && x.id != id
    ensures forall x: Note :: x.id != id ==> multiset(r)[x] == multiset(notes)[x]
    ensures forall i :: 0 <= i < |r| ==> r[i].id != id
  {
    var r := Filter(notes, OtherId(id));
    assert forall x :: x in r <==> multiset(r)[x] > 0;
    assert forall x :: x in notes <==> multiset(notes)[x] > 0;
    r
  }

  /**
   * Removal keeps the order of the survivors: it distributes over
   * concatenation, and a single note survives exactly when its id differs.
   */
  lemma RemoveByIdInOrder(a: seq<Note>, b: seq<Note>, id: NoteId, n: Note)
    ensures RemoveById(a + b, id) == RemoveById(a, id) + RemoveById(b, id)
    ensures RemoveById([n], id) == if n.id != id then [n] else []
  {
    FilterAppend(a, b, OtherId(id));
    assert [n][1..] == [];
  }

  /** Removing an id that no note carries leaves the list as it was. */
  lemma {:induction false} RemoveAbsentId(notes: seq<Note>, id: NoteId)
    requires forall i :: 0 <= i < |notes| ==> notes[i].id != id
    ensures RemoveById(notes, id) == notes
    decreases |notes|
  {
    if notes != [] {
      RemoveAbsentId(notes[1..], id);
    }
  }

  /** The note `n` with its title and content replaced. */
  function Rewrite(n: Note, title: string, content: string): Note {
    n.(title := title, content := content)
  }

  /**
   * `notes.map(note => note.id === id ? { ...note, title, content } : note)`:
   * the same list, position by position, with only the notes carrying `id`
   * rewritten.
   */
  function ReplaceById(notes: seq<Note>, id: NoteId, title: string, content: string): (r: seq<Note>)
    ensures |r| == |notes|
    ensures forall i :: 0 <= i < |r| && notes[i].id != id ==> r[i] == notes[i]
    ensures forall i :: 0 <= i < |r| && notes[i].id == id ==>
      r[i].title == title && r[i].content == content && r[i].id == id
      && r[i].userId == notes[i].userId && r[i].createdAt == notes[i].createdAt
      && r[i].updatedAt == notes[i].updatedAt
    decreases |notes|
  {
    if notes == [] then []
    else
      var head := if notes[0].id == id then Rewrite(notes[0], title, content) else notes[0];
      var rest := ReplaceById(notes[1..], id, title, content);
      assert forall i :: 1 <= i < |notes| ==> ([head] + rest)[i] == rest[i - 1] && notes[i] == notes[1..][i - 1];
      [head] + rest
  }

  /** Rewriting by id keeps every id where it was. */
  lemma ReplaceKeepsIds(notes: seq<Note>, id: NoteId, title: string, content: string, i: int)
    requires 0 <= i < |notes|
    ensures ReplaceById(notes, id, title, content)[i].id == notes[i].id
  {
  }

  /** Rewriting a note twice with the same fields is rewriting it once. */
  lemma {:induction false} ReplaceIdempotent(notes: seq<Note>, id: NoteId, title: string, content: string)
    ensures ReplaceById(ReplaceById(notes, id, title, content), id, title, content)
      == ReplaceById(notes, id, title, content)
    decreases |notes|
  {
    if notes != [] {
      ReplaceIdempotent(notes[1..], id, title, content);
    }
  }
}

=== FILE: notes_controller.dfy ===
/**
 * The `api/notes` controller: every endpoint first derives the caller's uid
 * from the `Authorization` header (a thrown `UnauthorizedException` is the
 * `Unauthorized` response), then validates the body, then calls the service.
 * `getNoteById` adds the owner check the service leaves out.
 */
module NotesController {
  import opened Wrappers
  import opened Text
  import opened NoteModel
  import opened Bearer
  import opened NotesService

  /** An HTTP 401 from a thrown `UnauthorizedException`, or the body the endpoint returns. */
  datatype Response<T> = Unauthorized(message: string) | Replied(reply: Reply<T>)

  /** A response together with the collection after the request. */
  datatype Exchange<T> = Exchange(response: Response<T>, store: Store)

  /** `{ title, content }` as posted; either field may be missing. */
  datatype NoteBody = NoteBody(title: Option<string>, content: Option<string>)

  const NO_HEADER := "No authorization header"
  const BAD_TOKEN := "Invalid or expired token"
  const NOT_OWNER_VIEW := "Unauthorized: You can only view your own notes"
  const UPDATE_REQUIRED := "At least one of title or content is required"

  /**
   * `getUserIdFromRequest`: a missing header is refused first; otherwise the
   * caller is whatever uid verification of the header's token yields.
   */
  function UserIdFromRequest(verify: Verifier, header: Option<string>): (r: Result<Uid>)
    ensures !Given(header) ==> r == Err(NO_HEADER)
    ensures Given(header) ==>
      match VerifyToken(verify, TokenOf(header.value))
      case Some(uid) => r == Ok(uid)
      case None => r == Err(BAD_TOKEN)
  {
    if !Given(header) then Err(NO_HEADER)
    else match VerifyToken(verify, TokenOf(header.value))
      case None => Err(BAD_TOKEN)
      case Some(uid) => Ok(uid)
  }

  /** With `Authorization: Bearer <token>`, the caller is exactly the uid the token proves. */
  lemma BearerHeaderAuthenticates(verify: Verifier, token: string)
    requires token != "" && ' ' !in token
    ensures UserIdFromRequest(verify, Some("Bearer " + token))
      == if verify(token).Some? then Ok(verify(token).value) else Err(BAD_TOKEN)
  {
    TokenOfSchemeAndToken("Bearer", token);
  }

  /** `POST /api/notes` */
  function CreateNote(verify: Verifier, store: Store, header: Option<string>, body: Option<NoteBody>,
                      freshId: NoteId, now: int): (r: Exchange<Note>)
    requires freshId !in store
    ensures UserIdFromRequest(verify, header).Err? ==>
      r == Exchange(Unauthorized(UserIdFromRequest(verify, header).error), store)
    ensures UserIdFromRequest(verify, header).Ok? && (body.None? || !Given(body.value.title) || !Given(body.value.content)) ==>
      r == Exchange(Replied(Failure(TITLE_CONTENT_REQUIRED)), store)
    ensures r.response.Replied? && r.response.reply.Success? ==>
      var n := r.response.reply.value;
      && UserIdFromRequest(verify, header) == Ok(n.userId)
      && body.Some? && Some(n.title) == body.value.title && Some(n.content) == body.value.content
      && n.id == freshId && r.store == store[freshId := n]
    ensures UserIdFromRequest(verify, header).Ok? && body.Some? && Given(body.value.title) && Given(body.value.content) ==>
      var step := NotesService.CreateNote(store, UserIdFromRequest(verify, header).value,
                                          body.value.title.value, body.value.content.value, freshId, now);
      r == Exchange(Replied(step.reply), step.store)
    ensures r.response.Replied? && r.response.reply.Success? ==>
      r.response.reply.value.createdAt == now && r.response.reply.value.updatedAt.None?
  {
    match UserIdFromRequest(verify, header)
    case Err(e) => Exchange(Unauthorized(e), store)
    case Ok(uid) =>
      if body.None? || !Given(body.value.title) || !Given(body.value.content) then
        Exchange(Replied(Failure(TITLE_CONTENT_REQUIRED)), store)
      else
        var step := NotesService.CreateNote(store, uid, body.value.title.value, body.value.content.value, freshId, now);
        Exchange(Replied(step.reply), step.store)
  }

  /** `GET /api/notes` */
  method GetNotes(verify: Verifier, store: Store, header: Option<string>) returns (r: Response<Listing>)
    requires WellKeyed(store)
    ensures UserIdFromRequest(verify, header).Err? ==> r == Unauthorized(UserIdFromRequest(verify, header).error)
    ensures UserIdFromRequest(verify, header).Ok? ==> r.Replied? && r.reply.Success?
    ensures r.Replied? && r.reply.Success? ==>
      var uid := UserIdFromRequest(verify, header).value;
      && UserIdFromRequest(verify, header).Ok?
      && multiset(r.reply.value.notes) == multiset(OwnedNotes(store, uid))
      && SortedDesc(r.reply.value.notes)
      && r.reply.value.count == |r.reply.value.notes|
      && (forall i :: 0 <= i < |r.reply.value.notes| ==> r.reply.value.notes[i].userId == uid)
  {
    var caller := UserIdFromRequest(verify, header);
    if caller.Err? {
      return Unauthorized(caller.error);
    }
    var listing := NotesService.GetNotes(store, caller.value);
    r := Replied(Success(listing));
  }

  /** `GET /api/notes/:id`: not-found is passed through; a non-owner gets a 401, never the note. */
  function GetNoteById(verify: Verifier, store: Store, header: Option<string>, noteId: NoteId): (r: Response<Note>)
    ensures UserIdFromRequest(verify, header).Err? ==> r == Unauthorized(UserIdFromRequest(verify, header).error)
    ensures UserIdFromRequest(verify, header).Ok? && noteId !in store ==> r == Replied(Failure(NOT_FOUND))
    ensures (UserIdFromRequest(verify, header).Ok? && noteId in store
             && store[noteId].userId != UserIdFromRequest(verify, header).value) ==> r == Unauthorized(NOT_OWNER_VIEW)
    ensures (UserIdFromRequest(verify, header).Ok? && noteId in store
             && store[noteId].userId == UserIdFromRequest(verify, header).value) ==> r == Replied(Success(store[noteId]))
    ensures r.Replied? && r.reply.Success? ==>
      && noteId in store && r.reply.value == store[noteId]
      && UserIdFromRequest(verify, header) == Ok(store[noteId].userId)
  {
    match UserIdFromRequest(verify, header)
    case Err(e) => Unauthorized(e)
    case Ok(uid) =>
      var result := NotesService.GetNoteById(store, noteId);
      if result.Failure? then Replied(result)
      else if result.value.userId != uid then Unauthorized(NOT_OWNER_VIEW)
      else Replied(result)
  }

  /** `PUT /api/notes/:id` */
  function UpdateNote(verify: Verifier, store: Store, header: Option<string>, noteId: NoteId,
                      body: Option<NoteBody>, now: int): (r: Exchange<()>)
    ensures UserIdFromRequest(verify, header).Err? ==>
      r == Exchange(Unauthorized(UserIdFromRequest(verify, header).error), store)
    ensures UserIdFromRequest(verify, header).Ok? && (body.None? || (!Given(body.value.title) && !Given(body.value.content))) ==>
      r == Exchange(Replied(Failure(UPDATE_REQUIRED)), store)
    ensures UserIdFromRequest(verify, header).Ok? && body.Some? && (Given(body.value.title) || Given(body.value.content)) ==>
      var step := NotesService.UpdateNote(store, UserIdFromRequest(verify, header).value, noteId,
                                          body.value.title, body.value.content, now);
      r == Exchange(Replied(step.reply), step.store)
    ensures r.store != store ==> noteId in store && UserIdFromRequest(verify, header) == Ok(store[noteId].userId)
  {
    match UserIdFromRequest(verify, header)
    case Err(e) => Exchange(Unauthorized(e), store)
    case Ok(uid) =>
      if body.None? || (!Given(body.value.title) && !Given(body.value.content)) then
        Exchange(Replied(Failure(UPDATE_REQUIRED)), store)
      else
        var step := NotesService.UpdateNote(store, uid, noteId, body.value.title, body.value.content, now);
        Exchange(Replied(step.reply), step.store)
  }

  /** `DELETE /api/notes/:id` */
  function DeleteNote(verify: Verifier, store: Store, header: Option<string>, noteId: NoteId): (r: Exchange<()>)
    ensures UserIdFromRequest(verify, header).Err? ==>
      r == Exchange(Unauthorized(UserIdFromRequest(verify, header).error), store)
    ensures UserIdFromRequest(verify, header).Ok? ==>
      var step := NotesService.DeleteNote(store, UserIdFromRequest(verify, header).value, noteId);
      r == Exchange(Replied(step.reply), step.store)
    ensures r.store != store ==>
      && noteId in store && UserIdFromRequest(verify, header) == Ok(store[noteId].userId)
      && r.store.Keys == store.Keys - {noteId}
  {
    match UserIdFromRequest(verify, header)
    case Err(e) => Exchange(Unauthorized(e), store)
    case Ok(uid) =>
      var step := NotesService.DeleteNote(store, uid, noteId);
      Exchange(Replied(step.reply), step.store)
  }

  /** Without an `Authorization` header every endpoint answers 401 and touches nothing. */
  lemma MissingHeaderRejected(verify: Verifier, store: Store, header: Option<string>, noteId: NoteId,
                              body: Option<NoteBody>, freshId: NoteId, now: int)
    requires !Given(header) && freshId !in store
    ensures CreateNote(verify, store, header, body, freshId, now) == Exchange(Unauthorized(NO_HEADER), store)
    ensures GetNoteById(verify, store, header, noteId) == Unauthorized(NO_HEADER)
    ensures UpdateNote(verify, store, header, noteId, body, now) == Exchange(Unauthorized(NO_HEADER), store)
    ensures DeleteNote(verify, store, header, noteId) == Exchange(Unauthorized(NO_HEADER), store)
  {
  }

  /** A created note can be read back by its creator with the title, content and owner given. */
  lemma CreateThenGet(verify: Verifier, store: Store, token: string, title: string, content: string,
                      freshId: NoteId, now: int)
    requires token != "" && ' ' !in token && verify(token).Some?
    requires freshId !in store && title != "" && content != ""
    ensures var header := Some("Bearer " + token);
      var created := CreateNote(verify, store, header, Some(NoteBody(Some(title), Some(content))), freshId, now);
      var got := GetNoteById(verify, created.store, header, freshId);
      && got.Replied? && got.reply.Success?
      && got.reply.value.title == title && got.reply.value.content == content
      && got.reply.value.userId == verify(token).value
  {
    BearerHeaderAuthenticates(verify, token);
  }

  /** After a successful delete the id is not found. */
  lemma DeleteThenGet(verify: Verifier, store: Store, header: Option<string>, noteId: NoteId)
    requires DeleteNote(verify, store, header, noteId).response == Replied(Success(()))
    ensures GetNoteById(verify, DeleteNote(verify, store, header, noteId).store, header, noteId)
      == Replied(Failure(NOT_FOUND))
  {
  }

  /** Updating only the title leaves the content as it was, and the reverse. */
  lemma UpdateOneFieldKeepsOther(verify: Verifier, store: Store, header: Option<string>, noteId: NoteId,
                                 title: string, now: int)
    requires noteId in store && UserIdFromRequest(verify, header) == Ok(store[noteId].userId)
    requires title != ""
    ensures var after := UpdateNote(verify, store, header, noteId, Some(NoteBody(Some(title), None)), now).store;
      noteId in after && after[noteId].title == title && after[noteId].content == store[noteId].content
    ensures var after := UpdateNote(verify, store, header, noteId, Some(NoteBody(None, Some(title))), now).store;
      noteId in after && after[noteId].content == title && after[noteId].title == store[noteId].title
  {
  }
}

=== FILE: notes_dashboard.dfy ===
/**
 * The `NotesDashboard` component: a note list with one modal form that
 * creates a note, or edits the note in `editingNote` when one is set.
 */
module NotesDashboard {
  import opened Wrappers
  import opened NoteModel
  import opened Client

  /** `formData`: the modal's two fields. */
  datatype Form = Form(title: string, content: string)

  const EMPTY_FORM := Form("", "")

  datatype State = State(
    notes: seq<Note>,
    error: string,
    showCreateModal: bool,
    editingNote: Option<Note>,
    form: Form)

  const INITIAL := State([], "", false, None, EMPTY_FORM)

  const LOAD_FAILED := "Failed to load notes. Please try again later."
  const CONNECT_FAILED := "Unable to connect to the server. Please try again later."
  const CREATE_FAILED := "Failed to create note. Please try again."
  const SAVE_UNREACHABLE := "Unable to save note. Please try again later."

  /** The modal is shown while creating or while a note is being edited. */
  predicate ModalOpen(s: State) {
    s.showCreateModal || s.editingNote.Some?
  }

  /** `fetchNotes` */
  function FetchNotes(s: State, answer: Answer<Option<seq<Note>>>): (r: State)
    ensures answer.Succeeded? ==> r == s.(notes := answer.value.GetOr([]), error := "")
    ensures !answer.Succeeded? ==>
      r == s.(error := if answer.Declined? then LOAD_FAILED else CONNECT_FAILED)
  {
    match answer
    case Succeeded(list) => s.(notes := list.GetOr([]), error := "")
    case Declined(_) => s.(error := LOAD_FAILED)
    case Threw(_) => s.(error := CONNECT_FAILED)
  }

  /** `handleCreateNote`: on success the server's note goes first and the form is reset and closed. */
  function HandleCreateNote(s: State, answer: Answer<Note>): (r: State)
    ensures answer.Succeeded? ==>
      && r.notes == [answer.value] + s.notes
      && r.form == EMPTY_FORM && !r.showCreateModal
      && r.error == "" && r.editingNote == s.editingNote
    ensures !answer.Succeeded? ==>
      r == s.(error := if answer.Declined? then CREATE_FAILED else SAVE_UNREACHABLE)
  {
    match answer
    case Succeeded(note) => s.(error := "", notes := [note] + s.notes, form := EMPTY_FORM, showCreateModal := false)
    case Declined(_) => s.(error := CREATE_FAILED)
    case Threw(_) => s.(error := SAVE_UNREACHABLE)
  }

  /**
   * `handleUpdateNote`. It is only reachable from the form's submit while a
   * note is being edited. On success the form's fields are written into the
   * cached notes with the edited id and editing ends; on failure the server's
   * or the exception's message is shown.
   */
  function HandleUpdateNote(s: State, answer: Answer<()>): (r: State)
    requires s.editingNote.Some?
    ensures answer.Succeeded? ==>
      var id := s.editingNote.value.id;
      && |r.notes| == |s.notes|
      && (forall i :: 0 <= i < |s.notes| && s.notes[i].id != id ==> r.notes[i] == s.notes[i])
      && (forall i :: 0 <= i < |s.notes| && s.notes[i].id == id ==>
            r.notes[i] == s.notes[i].(title := s.form.title, content := s.form.content))
      && r.form == EMPTY_FORM && r.editingNote.None? && r.error == ""
    ensures !answer.Succeeded? ==> r == s.(error := answer.message)
  {
    match answer
    case Succeeded(_) =>
      var id := s.editingNote.value.id;
      s.(error := "", notes := ReplaceById(s.notes, id, s.form.title, s.form.content),
         form := EMPTY_FORM, editingNote := None)
    case Declined(m) => s.(error := m)
    case Threw(m) => s.(error := m)
  }

  /** The form's `onSubmit`: update while editing, create otherwise. */
  function Submit(s: State, created: Answer<Note>, updated: Answer<()>): (r: State)
    ensures s.editingNote.Some? ==> r == HandleUpdateNote(s, updated)
    ensures s.editingNote.None? ==> r == HandleCreateNote(s, created)
    ensures (s.editingNote.None? && created.Succeeded?) || (s.editingNote.Some? && updated.Succeeded? && !s.showCreateModal)
      ==> !ModalOpen(r)
  {
    if s.editingNote.Some? then HandleUpdateNote(s, updated) else HandleCreateNote(s, created)
  }

  /**
   * `handleDeleteNote`: nothing unless the user confirms; on success every
   * note with that id leaves the list.
   */
  function HandleDeleteNote(s: State, noteId: NoteId, confirmed: bool, answer: Answer<()>): (r: State)
    ensures !confirmed ==> r == s
    ensures confirmed && answer.Succeeded? ==>
      && r.notes == RemoveById(s.notes, noteId)
      && (forall x: Note :: x in r.notes <==> x in s.notes && x.id != noteId)
      && (forall x: Note :: x.id != noteId ==> multiset(r.notes)[x] == multiset(s.notes)[x])
      && r.error == "" && r.form == s.form && r.editingNote == s.editingNote
      && r.showCreateModal == s.showCreateModal
    ensures confirmed && !answer.Succeeded? ==> r == s.(error := answer.message)
  {
    if !confirmed then s
    else match answer
      case Succeeded(_) => s.(error := "", notes := RemoveById(s.notes, noteId))
      case Declined(m) => s.(error := m)
      case Threw(m) => s.(error := m)
  }

  /** `openEditModal`: the form starts from the note's own fields. */
  function OpenEditModal(s: State, note: Note): (r: State)
    ensures r.editingNote == Some(note) && ModalOpen(r)
    ensures r.form == Form(note.title, note.content)
    ensures r.notes == s.notes && r.error == s.error && r.showCreateModal == s.showCreateModal
  {
    s.(editingNote := Some(note), form := Form(note.title, note.content))
  }

  /** `closeModal`: the modal closes and its form and error are discarded. */
  function CloseModal(s: State): (r: State)
    ensures !ModalOpen(r) && r.form == EMPTY_FORM && r.error == ""
    ensures r.notes == s.notes
  {
    s.(showCreateModal := false, editingNote := None, form := EMPTY_FORM, error := "")
  }

  /** Opening a note for editing and submitting it unchanged leaves every cached note as it was. */
  lemma {:induction false} EditUnchangedKeepsNotes(s: State, note: Note)
    requires forall i :: 0 <= i < |s.notes| && s.notes[i].id == note.id ==> s.notes[i] == note
    ensures HandleUpdateNote(OpenEditModal(s, note), Succeeded(())).notes == s.notes
  {
    var r := HandleUpdateNote(OpenEditModal(s, note), Succeeded(()));
    forall i | 0 <= i < |s.notes| ensures r.notes[i] == s.notes[i] {
      if s.notes[i].id == note.id {
        assert s.notes[i] == note;
      }
    }
  }

  /** Cancelling an edit and opening another note never carries the old form over. */
  lemma CloseThenOpen(s: State, note: Note)
    ensures OpenEditModal(CloseModal(s), note).form == Form(note.title, note.content)
    ensures CloseModal(OpenEditModal(s, note)) == CloseModal(s)
  {
  }

  /** "1 note", "0 notes", "2 notes". */
  function CountLabel(notes: seq<Note>): (r: string)
    ensures r == "note" <==> |notes| == 1
    ensures r == "notes" <==> |notes| != 1
  {
    if |notes| == 1 then "note" else "notes"
  }
}

=== FILE: notes_service.dfy ===
/**
 * The notes service: create, list, get, update and delete over the `notes`
 * collection. The collection is a map from document id to record; the id
 * that `collection('notes').doc()` generates and the clock that `new Date()`
 * reads are parameters. The service trusts the `userId` it is given; it is
 * the controller that derives it from a verified token.
 */
module NotesService {
  import opened Wrappers
  import opened Text
  import opened NoteModel

  type Store = map<NoteId, Note>

  /** Every record sits under its own id, as `createNote` writes `id: noteRef.id`. */
  predicate WellKeyed(store: Store) {
    forall k :: k in store ==> store[k].id == k
  }

  /** Every record has a non-empty title and a non-empty content. */
  predicate Filled(store: Store) {
    forall k :: k in store ==> store[k].title != "" && store[k].content != ""
  }

  /** The `{ success, ... }` objects the service returns. */
  datatype Reply<T> = Success(value: T) | Failure(message: string)

  /** A reply together with the collection after the call. */
  datatype Step<T> = Step(reply: Reply<T>, store: Store)

  const TITLE_CONTENT_REQUIRED := "Title and content are required"
  const NOT_FOUND := "Note not found"
  const NOT_OWNER_UPDATE := "Unauthorized: You can only update your own notes"
  const NOT_OWNER_DELETE := "Unauthorized: You can only delete your own notes"

  /**
   * `createNote`: rejects an empty title or content; otherwise stores a new
   * record owned by the caller under a fresh id and returns that record.
   */
  function CreateNote(store: Store, userId: Uid, title: string, content: string, freshId: NoteId, now: int): (r: Step<Note>)
    requires freshId !in store
    ensures r.reply.Failure? <==> title == "" || content == ""
    ensures r.reply.Failure? ==> r.reply.message == TITLE_CONTENT_REQUIRED && r.store == store
    ensures r.reply.Success? ==>
      var n := r.reply.value;
      && n.id == freshId && n.userId == userId
      && n.title == title && n.content == content
      && n.createdAt == now && n.updatedAt == None
      && r.store.Keys == store.Keys + {freshId}
      && r.store[freshId] == n
      && (forall k :: k in store ==> r.store[k] == store[k])
    ensures WellKeyed(store) ==> WellKeyed(r.store)
    ensures Filled(store) ==> Filled(r.store)
  {
    if title == "" || content == "" then
      Step(Failure(TITLE_CONTENT_REQUIRED), store)
    else
      var note := Note(freshId, title, content, userId, now, None);
      Step(Success(note), store[freshId := note])
  }

  /** The caller's records among the documents whose ids are in `keys`. */
  ghost function OwnedAmong(store: Store, userId: Uid, keys: set<NoteId>): set<Note> {
    set k | k in keys && k in store && store[k].userId == userId :: store[k]
  }

  /** Every record of the collection whose `user_id` is `userId`. */
  ghost function OwnedNotes(store: Store, userId: Uid): set<Note> {
    OwnedAmong(store, userId, store.Keys)
  }

  /** `{ notes, count }` as `getNotes` returns it. */
  datatype Listing = Listing(notes: seq<Note>, count: nat)

  lemma OwnedAmongAdd(store: Store, userId: Uid, done: set<NoteId>, k: NoteId)
    requires WellKeyed(store)
    requires k in store && k !in done
    ensures store[k].userId == userId ==>
      multiset(OwnedAmong(store, userId, done + {k}))
        == multiset(OwnedAmong(store, userId, done)) + multiset{store[k]}
    ensures store[k].userId != userId ==>
      OwnedAmong(store, userId, done + {k}) == OwnedAmong(store, userId, done)
  {
    var before := OwnedAmong(store, userId, done);
    if store[k].userId == userId {
      assert store[k] !in before;
      assert OwnedAmong(store, userId, done + {k}) == before + {store[k]};
    }
  }

  /** The caller's records, each once, in the order the documents are visited. */
  method CollectOwned(store: Store, userId: Uid) returns (found: seq<Note>)
    requires WellKeyed(store)
    ensures multiset(found) == multiset(OwnedNotes(store, userId))
  {
    var remaining := store.Keys;
    found := [];
    while remaining != {}
      invariant remaining <= store.Keys
      invariant multiset(found) == multiset(OwnedAmong(store, userId, store.Keys - remaining))
      decreases remaining
    {
      var k :| k in remaining;
      OwnedAmongAdd(store, userId, store.Keys - remaining, k);
      assert store.Keys - (remaining - {k}) == (store.Keys - remaining) + {k};
      if store[k].userId == userId {
        found := found + [store[k]];
      }
      remaining := remaining - {k};
    }
  }

  /** Every element of a list holding exactly the caller's records is a stored record of the caller. */
  lemma OwnedElements(store: Store, userId: Uid, s: seq<Note>)
    requires multiset(s) == multiset(OwnedNotes(store, userId))
    ensures forall i :: 0 <= i < |s| ==> s[i].userId == userId && s[i] in store.Values
  {
    forall i | 0 <= i < |s|
      ensures s[i].userId == userId && s[i] in store.Values
    {
      assert s[i] in multiset(s);
      assert s[i] in OwnedNotes(store, userId);
    }
  }

  /**
   * `getNotes`: the query `where('user_id', '==', userId)` ordered by
   * `created_at` descending. The result holds each of the caller's records
   * exactly once, nothing else, newest first, and `count` is its length.
   */
  method GetNotes(store: Store, userId: Uid) returns (r: Listing)
    requires WellKeyed(store)
    ensures multiset(r.notes) == multiset(OwnedNotes(store, userId))
    ensures SortedDesc(r.notes)
    ensures r.count == |r.notes|
    ensures forall i :: 0 <= i < |r.notes| ==> r.notes[i].userId == userId && r.notes[i] in store.Values
  {
    var found := CollectOwned(store, userId);
    var sorted := SortByCreatedDesc(found);
    OwnedElements(store, userId, sorted);
    r := Listing(sorted, |sorted|);
  }

  /** `getNoteById`: the stored record, whoever asks; the service checks no owner. */
  function GetNoteById(store: Store, noteId: NoteId): (r: Reply<Note>)
    ensures r.Success? <==> noteId in store
    ensures r.Success? ==> r.value == store[noteId]
    ensures r.Failure? ==> r.message == NOT_FOUND
  {
    if noteId !in store then Failure(NOT_FOUND) else Success(store[noteId])
  }

  /**
   * `after` is `before` with each given field replaced, each absent or empty
   * one kept, the update time stamped, and id, owner and creation time intact.
   */
  predicate Patched(before: Note, after: Note, title: Option<string>, content: Option<string>, now: int) {
    && after.id == before.id && after.userId == before.userId && after.createdAt == before.createdAt
    && after.title == (if Given(title) then title.value else before.title)
    && after.content == (if Given(content) then content.value else before.content)
    && after.updatedAt == Some(now)
  }

  /**
   * `updateNote`: not-found first, then the owner check, then a partial
   * patch in which an absent or empty field keeps its stored value.
   */
  function UpdateNote(store: Store, userId: Uid, noteId: NoteId, title: Option<string>, content: Option<string>, now: int): (r: Step<()>)
    ensures noteId !in store ==> r == Step(Failure(NOT_FOUND), store)
    ensures noteId in store && store[noteId].userId != userId ==> r == Step(Failure(NOT_OWNER_UPDATE), store)
    ensures r.reply.Success? <==> noteId in store && store[noteId].userId == userId
    ensures r.reply.Success? ==>
      && r.store.Keys == store.Keys
      && (forall k :: k in store && k != noteId ==> r.store[k] == store[k])
      && Patched(store[noteId], r.store[noteId], title, content, now)
    ensures WellKeyed(store) ==> WellKeyed(r.store)
    ensures Filled(store) ==> Filled(r.store)
  {
    if noteId !in store then Step(Failure(NOT_FOUND), store)
    else
      var existing := store[noteId];
      if existing.userId != userId then Step(Failure(NOT_OWNER_UPDATE), store)
      else
        var patched := existing.(
          title := Or(title, existing.title),
          content := Or(content, existing.content),
          updatedAt := Some(now));
        Step(Success(()), store[noteId := patched])
  }

  /** `deleteNote`: not-found first, then the owner check, then removal of that one record. */
  function DeleteNote(store: Store, userId: Uid, noteId: NoteId): (r: Step<()>)
    ensures noteId !in store ==> r == Step(Failure(NOT_FOUND), store)
    ensures noteId in store && store[noteId].userId != userId ==> r == Step(Failure(NOT_OWNER_DELETE), store)
    ensures r.reply.Success? <==> noteId in store && store[noteId].userId == userId
    ensures r.reply.Success? ==>
      && r.store.Keys == store.Keys - {noteId}
      && (forall k :: k in r.store ==> r.store[k] == store[k])
    ensures WellKeyed(store) ==> WellKeyed(r.store)
    ensures Filled(store) ==> Filled(r.store)
  {
    if noteId !in store then Step(Failure(NOT_FOUND), store)
    else if store[noteId].userId != userId then Step(Failure(NOT_OWNER_DELETE), store)
    else Step(Success(()), store - {noteId})
  }

  /** A record owned by one user is never changed or removed by a call from another. */
  lemma OthersCannotTouch(store: Store, owner: Uid, other: Uid, noteId: NoteId,
                          title: Option<string>, content: Option<string>, now: int)
    requires noteId in store && store[noteId].userId == owner && other != owner
    ensures UpdateNote(store, other, noteId, title, content, now).store == store
    ensures UpdateNote(store, other, noteId, title, content, now).reply.Failure?
    ensures DeleteNote(store, other, noteId).store == store
    ensures DeleteNote(store, other, noteId).reply.Failure?
  {
  }

  /** Once a non-empty title or content is stored, no update can make it empty. */
  lemma UpdateNeverClears(store: Store, userId: Uid, noteId: NoteId,
                          title: Option<string>, content: Option<string>, now: int)
    requires noteId in store && store[noteId].title != "" && store[noteId].content != ""
    ensures var r := UpdateNote(store, userId, noteId, title, content, now);
      noteId in r.store && r.store[noteId].title != "" && r.store[noteId].content != ""
  {
  }
}

=== FILE: sign_up.dfy ===
/**
 * The sign-up page's submit handler: three checks in a fixed order, each with
 * its own message, and only then the call to `signUp`, whose outcome is given.
 */
module SignUp {
  import opened Wrappers
  import opened Text

  const NAME_REQUIRED := "Full name is required"
  const PASSWORDS_DIFFER := "Passwords do not match"
  const PASSWORD_TOO_SHORT := "Password must be at least 6 characters"
  const SIGN_UP_FAILED := "Failed to create account"
  const MIN_PASSWORD_LENGTH := 6

  datatype Form = Form(fullName: string, email: string, password: string, confirmPassword: string)

  /** `signUp(email, password, fullName)` */
  datatype SignUpCall = SignUpCall(email: string, password: string, name: string)

  /** How the `signUp` promise settled: resolved, or rejected with an error's `message`. */
  datatype SignUpOutcome = SignedUp | Rejected(message: string)

  /** The call made, if any, the error shown afterwards, and whether the page moved on. */
  datatype Submitted = Submitted(call: Option<SignUpCall>, error: string, navigated: bool)

  /** The first check that fails, in the handler's order. */
  function FirstProblem(f: Form): (r: Option<string>)
    ensures r.None? <==>
      !AllSpace(f.fullName) && f.password == f.confirmPassword && |f.password| >= MIN_PASSWORD_LENGTH
    ensures AllSpace(f.fullName) ==> r == Some(NAME_REQUIRED)
    ensures !AllSpace(f.fullName) && f.password != f.confirmPassword ==> r == Some(PASSWORDS_DIFFER)
    ensures !AllSpace(f.fullName) && f.password == f.confirmPassword && |f.password| < MIN_PASSWORD_LENGTH ==>
      r == Some(PASSWORD_TOO_SHORT)
  {
    TrimEmptyIffAllSpace(f.fullName);
    if Trim(f.fullName) == "" then Some(NAME_REQUIRED)
    else if f.password != f.confirmPassword then Some(PASSWORDS_DIFFER)
    else if |f.password| < MIN_PASSWORD_LENGTH then Some(PASSWORD_TOO_SHORT)
    else None
  }

  /** `handleSubmit` */
  function HandleSubmit(f: Form, outcome: SignUpOutcome): (r: Submitted)
    ensures r.call.Some? <==> FirstProblem(f).None?
    ensures r.call.None? ==> r.error == FirstProblem(f).value && !r.navigated
    ensures r.call.Some? ==> r.call.value == SignUpCall(f.email, f.password, f.fullName)
    ensures r.navigated <==> r.call.Some? && outcome.SignedUp?
    ensures r.error == "" <==> r.navigated
    ensures r.call.Some? && outcome.Rejected? ==>
      r.error == if outcome.message != "" then outcome.message else SIGN_UP_FAILED
  {
    match FirstProblem(f)
    case Some(problem) => Submitted(None, problem, false)
    case None =>
      var call := SignUpCall(f.email, f.password, f.fullName);
      match outcome
      case SignedUp => Submitted(Some(call), "", true)
      case Rejected(m) => Submitted(Some(call), OrElse(m, SIGN_UP_FAILED), false)
  }

  /** A short password that also differs from its confirmation is reported as a mismatch. */
  lemma MismatchReportedBeforeLength(name: string, email: string, outcome: SignUpOutcome)
    requires !AllSpace(name)
    ensures HandleSubmit(Form(name, email, "abc", "abd"), outcome).error == PASSWORDS_DIFFER
  {
  }

  /** A blank name is reported whatever the passwords are, and nothing is sent. */
  lemma BlankNameReportedFirst(f: Form, outcome: SignUpOutcome)
    requires AllSpace(f.fullName)
    ensures HandleSubmit(f, outcome) == Submitted(None, NAME_REQUIRED, false)
  {
  }
}

=== FILE: text.dfy ===
/**
 * The few JavaScript string operations the core relies on, restricted to
 * ASCII where the language would consult Unicode tables: truthiness of a
 * possibly-undefined string, `||` defaulting, `toLowerCase`/`toUpperCase`,
 * `trim`, `includes`, `indexOf` and `split` on a one-character separator.
 */
module Text {
  import opened Wrappers

  /** JavaScript truthiness of a string that may be `undefined`. */
  predicate Given(s: Option<string>) {
    s.Some? && s.value != ""
  }

  /** `a || b` where `a` may be `undefined`. */
  function Or(a: Option<string>, b: string): string {
    if Given(a) then a.value else b
  }

  /** `a || b` for two strings. */
  function OrElse(a: string, b: string): string {
    if a != "" then a else b
  }

  function LowerChar(c: char): char {
    if 'A' <= c <= 'Z' then (c as int + 32) as char else c
  }

  function UpperChar(c: char): char {
    if 'a' <= c <= 'z' then (c as int - 32) as char else c
  }

  /** `s.toLowerCase()` on the ASCII letters. */
  function Lower(s: string): (r: string)
    ensures |r| == |s|
    ensures forall i :: 0 <= i < |s| ==> r[i] == LowerChar(s[i])
  {
    seq(|s|, i requires 0 <= i < |s| => LowerChar(s[i]))
  }

  /** The ASCII white-space characters that `String.prototype.trim` strips. */
  predicate IsSpace(c: char) {
    c == ' ' || c == '\t' || c == '\n' || c == '\r' || c == '\U{000B}' || c == '\U{000C}'
  }

  predicate AllSpace(s: string) {
    forall i :: 0 <= i < |s| ==> IsSpace(s[i])
  }

  function TrimStart(s: string): string
    decreases |s|
  {
    if |s| > 0 && IsSpace(s[0]) then TrimStart(s[1..]) else s
  }

  function TrimEnd(s: string): string
    decreases |s|
  {
    if |s| > 0 && IsSpace(s[|s| - 1]) then TrimEnd(s[..|s| - 1]) else s
  }

  /** `s.trim()` */
  function Trim(s: string): string {
    TrimEnd(TrimStart(s))
  }

  lemma {:induction false} TrimStartEmpty(s: string)
    ensures TrimStart(s) == "" <==> AllSpace(s)
    decreases |s|
  {
    if |s| > 0 && IsSpace(s[0]) {
      TrimStartEmpty(s[1..]);
      assert AllSpace(s) <==> AllSpace(s[1..]) by {
        if AllSpace(s[1..]) {
          forall i | 0 <= i < |s| ensures IsSpace(s[i]) {
            if i > 0 { assert s[i] == s[1..][i - 1]; }
          }
        }
      }
    }
  }

  lemma {:induction false} TrimEndEmptyOnlyWhenEmpty(s: string)
    ensures TrimEnd(s) == "" <==> AllSpace(s)
    decreases |s|
  {
    if |s| > 0 && IsSpace(s[|s| - 1]) {
      TrimEndEmptyOnlyWhenEmpty(s[..|s| - 1]);
      assert AllSpace(s) <==> AllSpace(s[..|s| - 1]) by {
        if AllSpace(s[..|s| - 1]) {
          forall i | 0 <= i < |s| ensures IsSpace(s[i]) {
            if i < |s| - 1 { assert s[i] == s[..|s| - 1][i]; }
          }
        }
      }
    }
  }

  lemma TrimStartSuffix(s: string)
    ensures |TrimStart(s)| <= |s| && TrimStart(s) == s[|s| - |TrimStart(s)|..]
    ensures TrimStart(s) == "" || !IsSpace(TrimStart(s)[0])
    decreases |s|
  {
    if |s| > 0 && IsSpace(s[0]) {
      TrimStartSuffix(s[1..]);
    }
  }

  /** A string trims to nothing exactly when it is made of white space only. */
  lemma TrimEmptyIffAllSpace(s: string)
    ensures Trim(s) == "" <==> AllSpace(s)
  {
    var t := TrimStart(s);
    TrimEndEmptyOnlyWhenEmpty(t);
    TrimStartEmpty(s);
    TrimStartSuffix(s);
  }

  /** `p` occurs in `s` as a contiguous block (the specification of `includes`). */
  ghost predicate IsInfix(p: string, s: string) {
    exists i :: InfixAt(p, s, i)
  }

  /** `p` occurs in `s` starting at position `i`. */
  predicate InfixAt(p: string, s: string, i: int) {
    0 <= i && i + |p| <= |s| && s[i..i + |p|] == p
  }

  /** `s.includes(p)` */
  function Contains(s: string, p: string): bool
    decreases |s|
  {
    if |p| > |s| then false
    else if s[..|p|] == p then true
    else Contains(s[1..], p)
  }

  /** The scanning search agrees with the definition of an infix. */
  lemma {:induction false} ContainsIsInfix(s: string, p: string)
    ensures Contains(s, p) <==> IsInfix(p, s)
    decreases |s|
  {
    if |p| > |s| {
    } else if s[..|p|] == p {
      assert InfixAt(p, s, 0);
    } else {
      ContainsIsInfix(s[1..], p);
      var t := s[1..];
      assert |t| == |s| - 1 && forall k :: 0 <= k < |t| ==> t[k] == s[k + 1];
      if IsInfix(p, t) {
        var i :| InfixAt(p, t, i);
        assert t[i..i + |p|] == s[i + 1..i + 1 + |p|];
        assert InfixAt(p, s, i + 1);
      }
      if IsInfix(p, s) {
        var i :| InfixAt(p, s, i);
        assert i != 0;
        assert t[i - 1..i - 1 + |p|] == s[i..i + |p|];
        assert InfixAt(p, t, i - 1);
      }
    }
  }

  /** The first position of `c` in `s`, as `s.indexOf(c)` (with -1 as `None`). */
  function IndexOf(s: string, c: char): (r: Option<nat>)
    ensures r.None? <==> c !in s
    ensures r.Some? ==> r.value < |s| && s[r.value] == c && c !in s[..r.value]
    decreases |s|
  {
    if |s| == 0 then None
    else if s[0] == c then Some(0)
    else match IndexOf(s[1..], c)
      case None => None
      case Some(k) => Some(k + 1)
  }

  /** `s.split(sep)` for a one-character separator. */
  function Split(s: string, sep: char): (parts: seq<string>)
    ensures |parts| >= 1
    ensures forall i :: 0 <= i < |parts| ==> sep !in parts[i]
    decreases |s|
  {
    match IndexOf(s, sep)
    case None => [s]
    case Some(i) => [s[..i]] + Split(s[i + 1..], sep)
  }

  /** `parts.join(sep)` */
  function Join(parts: seq<string>, sep: char): string
    requires |parts| >= 1
    decreases |parts|
  {
    if |parts| == 1 then parts[0] else parts[0] + [sep] + Join(parts[1..], sep)
  }

  /** Splitting loses nothing: joining the pieces rebuilds the string. */
  lemma {:induction false} JoinSplit(s: string, sep: char)
    ensures Join(Split(s, sep), sep) == s
    decreases |s|
  {
    var r := IndexOf(s, sep);
    if r.Some? {
      var i := r.value;
      var rest := Split(s[i + 1..], sep);
      assert Split(s, sep) == [s[..i]] + rest;
      assert ([s[..i]] + rest)[1..] == rest;
      JoinSplit(s[i + 1..], sep);
      assert Join(Split(s, sep), sep) == s[..i] + [sep] + Join(rest, sep);
      assert s == s[..i] + [sep] + s[i + 1..];
    }
  }

  lemma IndexOfAfterPrefix(a: string, sep: char, b: string)
    requires sep !in a
    ensures IndexOf(a + [sep] + b, sep) == Some(|a|)
  {
    var s := a + [sep] + b;
    var r := IndexOf(s, sep);
    assert s[|a|] == sep;
  }

  /** Splitting at a first separator takes the text before it as the first piece. */
  lemma SplitAtFirst(a: string, sep: char, rest: string)
    requires sep !in a
    ensures Split(a + [sep] + rest, sep) == [a] + Split(rest, sep)
  {
    var s := a + [sep] + rest;
    IndexOfAfterPrefix(a, sep, rest);
    assert s[..|a|] == a;
    assert s[|a| + 1..] == rest;
  }

  /** Joining pieces free of the separator and splitting again gives the pieces back. */
  lemma {:induction false} SplitJoin(parts: seq<string>, sep: char)
    requires |parts| >= 1
    requires forall i :: 0 <= i < |parts| ==> sep !in parts[i]
    ensures Split(Join(parts, sep), sep) == parts
    decreases |parts|
  {
    if |parts| > 1 {
      SplitJoin(parts[1..], sep);
      SplitAtFirst(parts[0], sep, Join(parts[1..], sep));
      assert parts == [parts[0]] + parts[1..];
    } else {
      assert sep !in parts[0];
    }
  }

  /** `s.split(sep)[0]`: everything before the first separator. */
  function FirstField(s: string, sep: char): string {
    Split(s, sep)[0]
  }

  /** The first field is the longest separator-free prefix of the string. */
  lemma FirstFieldIsPrefix(s: string, sep: char)
    ensures var f := FirstField(s, sep);
      && sep !in f
      && |f| <= |s| && s[..|f|] == f
      && (|f| == |s| || s[|f|] == sep)
  {
  }

  /** `s.split(sep)[1]`, or `None` when that element is `undefined`. */
  function SecondField(s: string, sep: char): Option<string> {
    var parts := Split(s, sep);
    if |parts| > 1 then Some(parts[1]) else None
  }

  /** `a + sep + b` with separator-free `a` and `b` has `b` as its second field. */
  lemma SecondFieldOfPair(a: string, sep: char, b: string)
    requires sep !in a && sep !in b
    ensures SecondField(a + [sep] + b, sep) == Some(b)
  {
    SplitJoin([a, b], sep);
    assert Join([a, b], sep) == a + [sep] + b;
  }

  /** A string without the separator has no second field. */
  lemma SecondFieldAbsent(s: string, sep: char)
    requires sep !in s
    ensures SecondField(s, sep) == None
  {
  }
}

=== FILE: wrappers.dfy ===
/** The optional value and the value-or-message result that every module of the notes model uses. */
module Wrappers {

  /** A value that may be missing: JavaScript's `undefined`/`null` become `None`. */
  datatype Option<+T> = None | Some(value: T) {

    /** The present value, else `default`: `list || []` for a list that may be missing. */
    function GetOr(default: T): T {
      match this
      case Some(v) => v
      case None => default
    }
  }

  /** Either a value or an error message. */
  datatype Result<+T> = Ok(value: T) | Err(error: string)
}
